=== FILE: README.md ===
# Approvideo learning hub: content model

This project models the data core of the Approvideo learning hub: a catalog of
how-to videos organised as Area → Subcategory → Video, with a tag glossary. It
is written in Dafny. The model covers two source files:

- the frontend integration layer, `frontend/hub.approvideo.org/integration-functions.js`:
  - the record shaping done after each Parse query;
  - `buildContentStructure`;
  - the JSON bulk import with its validators;
  - the role table of `AuthManager.hasPermission`;
  - the `AdvancedAnalytics` search, tag-usage and top-viewed reports;
  - the `NotificationManager` list.
- the Parse cloud function `importApprovideoContent` (`cloud/main.js`). It walks a
  nested areas → subcategories → videos payload and creates whatever is not
  stored yet.

Each operation is a pure Dafny function over immutable datatypes. Its contract
is stated in terms of what the result means, and lemmas relate operations to
each other. For example:

- the chained search filters equal a single conjunctive selection;
- re-importing a payload creates nothing;
- sorts are stable permutations;
- normalising is idempotent.

Modules:

| file | module | models |
|---|---|---|
| `wrappers.dfy` | `Wrappers` | `Option`, `Arg` (undefined, `null` or a value) and `Result` |
| `strings.dfy` | `Strings` | the JavaScript string operations the source relies on: `toLowerCase`, `\s`, `includes`, `length` in UTF-16 code units, `localeCompare`, truthiness, decimal rendering |
| `seqs.dfy` | `Seqs` | `Array.prototype.filter` and `map`, and the subsequence order |
| `sorting.dfy` | `Sorting` | `Array.prototype.sort(compare)` as a stable insertion sort |
| `entities.dfy` | `Entities` | the catalog records and `fetchAreas` / `fetchSubcategories` / `fetchVideos` / `fetchTags` |
| `content.dfy` | `Content` | `buildContentStructure` |
| `bulk_import.dfy` | `BulkImport` | `importFromJSON`, `bulkImportTags`, `bulkImportAreas`, `validateTagData`, `validateAreaData` |
| `auth.dfy` | `Auth` | `hasPermission` and the permissions table |
| `analytics.dfy` | `Analytics` | `advancedSearch`, `getTagUsage`, `getTopViewedVideos` |
| `notifications.dfy` | `Notifications` | `NotificationManager.add`, `markAsRead`, `getUnread` |
| `cloud_import.dfy` | `CloudImport` | the `importApprovideoContent` cloud function |

Things the source gets from outside are made explicit:

- The clock, `Math.random` and Parse object ids become parameters.
- Which store writes throw is an explicit failure set:
  - in `BulkImport`, the positions of the items whose write throws;
  - in `CloudImport`, the natural keys whose query or save throws.
- A Parse field that may be missing is an `Option`. JavaScript truthiness of
  such a string is `Strings.Truthy`, and `x || d` is `Strings.OrDefault`.

## Model

| member | source | states |
|---|---|---|
| Strings.Lower | frontend/hub.approvideo.org/integration-functions.js:657-661 | lower-casing keeps the length and maps every character through the ASCII case mapping |
| Strings.LowerIsLowerCase | frontend/hub.approvideo.org/integration-functions.js:657-661 | no upper-case letter survives lower-casing, and every other character is unchanged |
| Strings.LowerIdempotent | frontend/hub.approvideo.org/integration-functions.js:657-661 | lower-casing a lower-cased string changes nothing |
| Strings.Slug | frontend/hub.approvideo.org/integration-functions.js:245 | `replace(/\s+/g, '-')` leaves no whitespace, never lengthens the string, and leaves a string without whitespace unchanged |
| Strings.SlugIdempotent | frontend/hub.approvideo.org/integration-functions.js:245 | applying the whitespace replacement twice equals applying it once |
| Strings.SlugReplacesRun | frontend/hub.approvideo.org/integration-functions.js:245 | a maximal whitespace run between two pieces of text becomes exactly one `-`, and the text on each side is replaced as if on its own |
| Strings.SlugSplitBeforeSpace | frontend/hub.approvideo.org/integration-functions.js:245 | text ending in a non-space followed by text starting with whitespace is replaced piece by piece |
| Strings.Utf16Length | frontend/hub.approvideo.org/integration-functions.js:461 | a string's JavaScript length lies between its character count and twice it: equal to the count when every character is in the Basic Multilingual Plane, twice the count when none is |
| Strings.Utf16LengthAppend | frontend/hub.approvideo.org/integration-functions.js:461 | the JavaScript length of a concatenation is the sum of the lengths |
| Strings.ContainsIsSubstring | frontend/hub.approvideo.org/integration-functions.js:659-661 | `includes` holds exactly when the needle occurs at some offset of the haystack |
| Strings.ContainsEmpty | frontend/hub.approvideo.org/integration-functions.js:659 | every string includes the empty string |
| Strings.LexLeTotal | frontend/hub.approvideo.org/integration-functions.js:315 | any two titles are ordered one way or the other |
| Strings.LexLeTransitive | frontend/hub.approvideo.org/integration-functions.js:315 | the title order is transitive |
| Strings.LexLeAntisymmetric | frontend/hub.approvideo.org/integration-functions.js:315 | two titles ordered both ways are equal |
| Strings.NatToString | cloud/main.js:165-168 | a counter renders as a non-empty run of decimal digits without a leading zero |
| Strings.NatToStringRoundTrip | cloud/main.js:165-168 | reading the rendered counter back gives the counter |
| Seqs.Filter | frontend/hub.approvideo.org/integration-functions.js:304 | `filter` keeps exactly the elements satisfying the predicate and never lengthens the list |
| Seqs.FilterIsSubsequence | frontend/hub.approvideo.org/integration-functions.js:304 | `filter` keeps the survivors in their original order |
| Seqs.FilterFilter | frontend/hub.approvideo.org/integration-functions.js:653-700 | two filters in a row equal one filter by the conjunction |
| Seqs.FilterLength | frontend/hub.approvideo.org/integration-functions.js:767 | the length of a filtered list is the number of elements satisfying the predicate |
| Seqs.SubsequenceTransitive | frontend/hub.approvideo.org/integration-functions.js:653-700 | a subsequence of a subsequence is a subsequence |
| Sorting.InsertionSort | frontend/hub.approvideo.org/integration-functions.js:310 | `sort(compare)` returns a permutation of its input, sorted by the comparator |
| Sorting.InsertionSortIsStable | frontend/hub.approvideo.org/integration-functions.js:310 | elements that compare equal keep their input order |
| Sorting.InsertKeepsEquivalentOrder | frontend/hub.approvideo.org/integration-functions.js:310 | inserting an element puts it ahead of the elements equivalent to it and keeps their order |
| Sorting.InsertionSortOfSorted | frontend/hub.approvideo.org/integration-functions.js:315 | an already sorted list is returned unchanged |
| Entities.NormalizeArea | frontend/hub.approvideo.org/integration-functions.js:218-226 | the area record copies the Parse fields, falls back to the folder icon for a missing or empty icon, and starts without subcategories |
| Entities.NormalizeSubcategory | frontend/hub.approvideo.org/integration-functions.js:236-248 | the subcategory record copies the fields, takes `areaId` from the area pointer, keeps a truthy `uniqueId` or else uses the area-slug fallback, and defaults tags to empty |
| Entities.NormalizeVideo | frontend/hub.approvideo.org/integration-functions.js:258-276 | the video record copies the fields, uses the defaults for licence, icon and colour, uses 0 for rating and views, records the position as `flat_index`, and falls back to `createdAt` for the date |
| Entities.NormalizeTag | frontend/hub.approvideo.org/integration-functions.js:285-290 | the tag record copies the fields and falls back to the violet colour |
| Entities.NormalizeIsIdempotent | frontend/hub.approvideo.org/integration-functions.js:218-290 | shaping a record that was already shaped and written back changes nothing |
| Content.TitleOrderIsTotalPreorder | frontend/hub.approvideo.org/integration-functions.js:315 | the subcategory comparator is a total preorder, so the sort is well defined |
| Content.DateOrderIsTotalPreorder | frontend/hub.approvideo.org/integration-functions.js:310 | the newest-first video comparator is a total preorder |
| Content.BuildGlossary | frontend/hub.approvideo.org/integration-functions.js:296-299 | the glossary holds exactly the lower-cased tag names other than `__proto__`, which a plain object will not store; each maps to the definition, or `<name> related content`, of the last tag carrying it |
| Content.WithVideos | frontend/hub.approvideo.org/integration-functions.js:307-310 | a subcategory receives exactly the videos whose categories list its id, newest first, and nothing else changes |
| Content.StructureArea | frontend/hub.approvideo.org/integration-functions.js:302-316 | an area receives exactly the subcategories whose `areaId` is its id, each with its videos, sorted by title, and nothing else changes |
| Content.GroupMembers | frontend/hub.approvideo.org/integration-functions.js:304 | the matched group holds exactly the subcategories pointing at the area, each carrying its videos |
| Content.BuildContentStructure | frontend/hub.approvideo.org/integration-functions.js:294-326 | the build throws exactly when a tag has no name or a subcategory to be sorted has no title; otherwise it maps every area in order and returns the inputs, the glossary (without a `__proto__` entry) and the timestamp |
| Content.OrphanIsDropped | frontend/hub.approvideo.org/integration-functions.js:304 | a subcategory whose `areaId` names no area appears under no area |
| Content.TreeVideosAreMembers | frontend/hub.approvideo.org/integration-functions.js:307-310 | every attached subcategory holds exactly its member videos, newest first |
| Content.ShelterExample | frontend/hub.approvideo.org/integration-functions.js:294-326 | area "Shelter" with one subcategory and one video is built as the expected tree |
| BulkImport.ValidateTagData | frontend/hub.approvideo.org/integration-functions.js:458-463 | a tag is rejected exactly when its name is missing, empty or longer than 50 UTF-16 code units, with one message |
| BulkImport.ValidateAreaData | frontend/hub.approvideo.org/integration-functions.js:465-470 | an area is rejected exactly when its name is missing, empty or longer than 100 UTF-16 code units, with one message |
| BulkImport.AstralTagNameTooLong | frontend/hub.approvideo.org/integration-functions.js:461 | a name of twenty-six emoji, twenty-six characters but fifty-two code units, is rejected as too long |
| BulkImport.FindByKey | frontend/hub.approvideo.org/integration-functions.js:415 | `find` returns the first record with the key, and nothing exactly when no record has it |
| BulkImport.ImportOne | frontend/hub.approvideo.org/integration-functions.js:406-426 | one item is rejected, created, updated, skipped or failed under exactly the source's conditions, and the store and counters change accordingly; an update replaces the first record with the item's key, the one `find` returns |
| BulkImport.ImportAll | frontend/hub.approvideo.org/integration-functions.js:405-427 | the loop records one outcome per item |
| BulkImport.ImportAccounting | frontend/hub.approvideo.org/integration-functions.js:404-428 | `created`, `updated` and `errors` count exactly the created, updated and rejected-or-failed outcomes |
| BulkImport.ImportCountersBounded | frontend/hub.approvideo.org/integration-functions.js:404-428 | the three counters together never exceed the number of items |
| BulkImport.RejectedExactlyWhenInvalid | frontend/hub.approvideo.org/integration-functions.js:407-413 | an item is rejected exactly when validation is on and it fails validation, and the loop goes on past it |
| BulkImport.ImportStoresKeys | frontend/hub.approvideo.org/integration-functions.js:415-423 | no stored key is lost, and every valid item whose write does not throw has its key stored afterwards |
| BulkImport.NothingCreatedWhenAllStored | frontend/hub.approvideo.org/integration-functions.js:415-423 | when every valid item's key is already stored, nothing is created |
| BulkImport.ReimportCreatesNothing | frontend/hub.approvideo.org/integration-functions.js:404-428 | importing the same items again after a run without write failures creates nothing, whatever either run's overwrite option |
| BulkImport.BulkImportTags | frontend/hub.approvideo.org/integration-functions.js:404-428 | a tag is rejected exactly when validation is on and its name is missing, empty or longer than 50 UTF-16 code units; every tag gets one outcome |
| BulkImport.BulkImportAreas | frontend/hub.approvideo.org/integration-functions.js:431-455 | an area is rejected exactly when validation is on and its name is missing, empty or longer than 100 UTF-16 code units; every area gets one outcome |
| BulkImport.BambooImportedOnce | frontend/hub.approvideo.org/integration-functions.js:404-428 | with the default options, tag "bamboo" is created by a first import and skipped without error by a second, and the store keeps one copy |
| BulkImport.ImportFromJson | frontend/hub.approvideo.org/integration-functions.js:356-401 | tags are imported first, then areas; a payload with subcategories or videos throws after those writes; otherwise the report holds exactly the results of the tag and area runs, each bounded by its item count |
| BulkImport.JsonReimportCreatesNothing | frontend/hub.approvideo.org/integration-functions.js:356-401 | importing the same JSON again after a run without write failures reports no tag and no area created |
| Auth.EffectiveRole | frontend/hub.approvideo.org/integration-functions.js:547 | a missing or empty role counts as viewer, and any other role is taken as given |
| Auth.HasPermissionAsWritten | frontend/hub.approvideo.org/integration-functions.js:544-551 | without a user the answer is false; the check throws exactly when the role is a name every object inherits |
| Auth.HasPermission | frontend/hub.approvideo.org/integration-functions.js:544-551 | without a signed-in user nothing is granted; a role of the table is granted exactly the actions it lists; a role outside the table grants nothing; a user without a role may read and nothing else |
| Auth.ConstructorRoleThrows | frontend/hub.approvideo.org/integration-functions.js:548-550 | role "constructor" makes the written check throw, while the corrected one answers false |
| Auth.AsWrittenAgreesElsewhere | frontend/hub.approvideo.org/integration-functions.js:544-551 | for every other role the written and corrected checks give the same answer |
| Auth.RoleGrants | frontend/hub.approvideo.org/integration-functions.js:511-515 | viewer may only read, editor may create, read and update, and admin may also delete, export and import |
| Auth.RolesAreNested | frontend/hub.approvideo.org/integration-functions.js:511-515 | whatever a viewer may do an editor may do, and whatever an editor may do an admin may do |
| Auth.OnlyAdminMayDelete | frontend/hub.approvideo.org/integration-functions.js:511-515 | only an admin may delete, export or import |
| Analytics.AreaSubcategoryIds | frontend/hub.approvideo.org/integration-functions.js:667-669 | the ids collected are exactly those of the subcategories whose area is among the requested areas |
| Analytics.Selected | frontend/hub.approvideo.org/integration-functions.js:653-700 | the selection keeps, in order, exactly the videos satisfying every active filter, each as many times as it occurs in the input |
| Analytics.ChainIsConjunction | frontend/hub.approvideo.org/integration-functions.js:653-700 | applying guarded filter steps one after the other equals one filter by the conjunction of the active steps |
| Analytics.PassesSourceOrder | frontend/hub.approvideo.org/integration-functions.js:656-700 | passing the six steps in the source's order is satisfying every active filter |
| Analytics.SearchIsConjunction | frontend/hub.approvideo.org/integration-functions.js:653-700 | the source's filter chain returns the one-pass selection |
| Analytics.Destructure | frontend/hub.approvideo.org/integration-functions.js:644-651 | destructuring fails exactly when `filters` is `null` or one of its lists `areas`, `tags`, `creators` is `null`; an undefined list becomes `[]`, a given one is kept, and the other fields are copied |
| Analytics.DestructureFields | frontend/hub.approvideo.org/integration-functions.js:644-651 | destructuring a filters object that spells out every list gives back exactly those filters |
| Analytics.AdvancedSearch | frontend/hub.approvideo.org/integration-functions.js:643-708 | the search throws exactly when `filters` or one of its list fields is `null`, or when a query is given and some video has no title; otherwise it returns the selection by the destructured filters, its count, and the filters object (`{}` when omitted) and query it was given |
| Analytics.NullListThrows | frontend/hub.approvideo.org/integration-functions.js:666-696 | a `null` `areas`, `tags` or `creators` makes the search throw, whatever the query and the videos |
| Analytics.NoFiltersReturnEverything | frontend/hub.approvideo.org/integration-functions.js:643-708 | with no query and the `filters` argument omitted every video is returned, in order |
| Analytics.DateRangeIsIgnored | frontend/hub.approvideo.org/integration-functions.js:644-651 | for any filters object, the `dateRange` field never changes whether the search throws or what it returns |
| Analytics.BambooVideoMatchesText | frontend/hub.approvideo.org/integration-functions.js:656-662 | the query "bamboo" matches a video tagged "Bamboo" |
| Analytics.TextQueryIgnoresCase | frontend/hub.approvideo.org/integration-functions.js:656-662 | the text search is case-insensitive on tags: "bamboo" finds the video tagged "Bamboo" |
| Analytics.TagFilterIsCaseSensitive | frontend/hub.approvideo.org/integration-functions.js:677-681 | the tag filter is case-sensitive: tag "bamboo" does not select the video tagged "Bamboo" |
| Analytics.Bump | frontend/hub.approvideo.org/integration-functions.js:627 | counting one occurrence raises that tag's count by one and leaves every other count alone |
| Analytics.Usage | frontend/hub.approvideo.org/integration-functions.js:624-629 | the usage table has one entry per distinct tag other than `__proto__`, whose writes a plain object ignores, with its number of occurrences |
| Analytics.GetTagUsage | frontend/hub.approvideo.org/integration-functions.js:623-633 | the report lists every tag occurring on some video exactly once, except `__proto__`, which it never lists; each comes with its number of occurrences over all videos, highest count first |
| Analytics.ReorderedUsage | frontend/hub.approvideo.org/integration-functions.js:630-632 | any reordering of the usage table lists every occurring tag other than `__proto__` exactly once, with its exact count |
| Analytics.GetTopViewedVideos | frontend/hub.approvideo.org/integration-functions.js:635-640 | the store's list is sorted in place by views, highest first; the report summarizes its first `limit` entries, with `slice`'s treatment of a negative limit, and none is viewed less than a video left out |
| Analytics.TopViewedIsStable | frontend/hub.approvideo.org/integration-functions.js:637 | videos with the same view count keep their order in the store |
| Notifications.Add | frontend/hub.approvideo.org/integration-functions.js:722-744 | the new unread notification goes in front, the older ones follow in order, and only the newest 50 are kept |
| Notifications.MarkAsRead | frontend/hub.approvideo.org/integration-functions.js:757-763 | only the first notification with the id becomes read, and nothing else changes |
| Notifications.GetUnread | frontend/hub.approvideo.org/integration-functions.js:766-768 | the unread list holds, in order, exactly the unread notifications, each as many times as it occurs in the list |
| Notifications.MarkAsReadUnreadCount | frontend/hub.approvideo.org/integration-functions.js:757-768 | marking as read lowers the unread count by one exactly when it finds an unread notification, and leaves it unchanged otherwise |
| Notifications.AddedIsFirstUnread | frontend/hub.approvideo.org/integration-functions.js:722-768 | a new notification is the first unread one, and the list stays within 50 |
| CloudImport.ExtendsTransitive | cloud/main.js:52-163 | growing the store in two steps is growing it |
| CloudImport.ImportVideo | cloud/main.js:109-147 | a video is looked up by `youtubeId` and created under its subcategory when missing, or recorded as one error when its step throws |
| CloudImport.ImportVideos | cloud/main.js:109-148 | the video loop only adds videos, all under the current subcategory, and records one error per failing video |
| CloudImport.StoredVideosAreNoop | cloud/main.js:113-140 | a video loop whose videos are all stored changes nothing |
| CloudImport.ImportSubcategory | cloud/main.js:80-155 | a subcategory is looked up by `uniqueId` and created under its area when missing, its videos are imported, or one error is recorded when its step throws |
| CloudImport.ImportSubcategories | cloud/main.js:79-156 | the subcategory loop only adds objects and leaves the areas alone |
| CloudImport.SubcategoriesCounts | cloud/main.js:79-156 | the subcategory loop's counters are bounded by the items it sees, and it records one error per failing item it reaches |
| CloudImport.SubcategoriesLinks | cloud/main.js:79-156 | every subcategory whose step does not throw is stored afterwards, every new subcategory points at the current area, and every new video at a stored subcategory |
| CloudImport.SubcategoriesGetStored | cloud/main.js:79-156 | after a run without failures every subcategory and video of the loop is stored |
| CloudImport.StoredSubcategoriesAreNoop | cloud/main.js:82-104 | a subcategory loop whose items are all stored changes nothing |
| CloudImport.ImportArea | cloud/main.js:53-162 | an area is looked up by name and created when missing, its subcategories are imported, or one error is recorded when its step throws |
| CloudImport.ImportAreas | cloud/main.js:52-163 | the area loop only adds objects |
| CloudImport.AreasCounts | cloud/main.js:52-163 | the area loop's counters are bounded by the payload, and it records one error per failing item it reaches |
| CloudImport.AreasKeepLinks | cloud/main.js:52-163 | a well-linked store stays well linked through the area loop |
| CloudImport.AreasGetStored | cloud/main.js:52-163 | after a run without failures every area, subcategory and video of the payload is stored |
| CloudImport.StoredAreasAreNoop | cloud/main.js:55-76 | an area loop whose items are all stored changes nothing |
| CloudImport.ImportContent | cloud/main.js:39-168 | the import only grows the store, and each counter equals the number of keys added at its level |
| CloudImport.Summary | cloud/main.js:165-168 | the message starts with "Import successful! " exactly when there are no errors, and otherwise with the error count |
| CloudImport.ImportCounts | cloud/main.js:39-168 | the counters are bounded by the payload's areas, subcategories and videos, and errors are one per failing item reached |
| CloudImport.ImportKeepsLinks | cloud/main.js:39-168 | every stored subcategory points at a stored area and every stored video at a stored subcategory, before and after an import |
| CloudImport.RerunCreatesNothing | cloud/main.js:39-168 | running the import again after a run without failures leaves the store as it is, creates nothing, records no error and reports success |

## Left out

- The Parse SDK I/O is out of the model: queries, `find`, `save`, `Parse.User` login, logout and `getCurrentUser`, and the `RealTimeSync` live queries. The model takes the fetched objects and the store contents as values.
- `createBackup`, `exportAllData`, `exportForFrontend`, `generateAdvancedAnalytics`, `getVideosByArea` and the other `AdvancedAnalytics` reports are left out. They are outside the core.
- `bulkImportSubcategories` and `bulkImportVideos` are called by `importFromJSON` but defined nowhere. `BulkImport.ImportFromJson` models only their consequence: the call throws after the tag and area writes.
- The admin store's `addTag`, `updateTag`, `addArea` and `updateArea` are assumed to append a record, or to replace the record found, in the list the next lookup reads. The admin store is not part of this model.
- A missing natural key (`None`) matches a stored record without that key, in `BulkImport.FindByKey` and in the cloud lookups. This is what the source does: `find(t => t.name === tagData.name)` with an undefined name finds a record whose name is undefined, and the Parse JavaScript SDK turns `equalTo(field, undefined)` into a query for objects without the field.
- Which writes throw, and the text of the caught errors (`error.message`), are not derived. They come from the failure sets given as parameters.
- Clocks and randomness are parameters:
  - `lastUpdated`;
  - the notification `id` (`Date.now() + Math.random()`, a float, modelled as an integer);
  - the notification timestamp.
- `NotificationManager.subscribe` and `notifySubscribers` are left out: the subscriber callbacks are foreign code. `clear` is left out too: it empties the list.
- `Notifications.Add` does not model the `data` field: no other operation reads it.
- `Analytics.GetTagUsage` returns an ordered list of entries, not a JavaScript object. It leaves out two JavaScript object behaviours:
  - integer-like keys are enumerated ahead of the sorted order;
  - a tag named after an `Object.prototype` member other than `__proto__` (e.g. "constructor") starts from a function value instead of 0, so its entry holds a string. A `__proto__` tag is modelled: its writes are ignored and it is never reported.
- `Analytics.Destructure` takes each list filter to be an array of strings, `null` or undefined. Other values, such as a string, whose `.length` and `.includes` also work, are not modelled.
- Array identity is not modelled. With no active filter, `advancedSearch` returns the store's own array, so a later in-place sort by `getTopViewedVideos` also reorders that earlier search result. The model returns values, so this aliasing is invisible.
- `Analytics.GetTopViewedVideos` treats view counts as integers. A missing count is already 0 from the record shaping. The floating-point `rating` is an integer in `Entities.Video`.
- `Content.BuildContentStructure` approximates when the title sort throws. `a.title.localeCompare(b.title)` throws only when the engine passes a subcategory without a title as the first argument `a`. As `b`, its title is compared as the string "undefined". The model reports the error whenever a group of two or more subcategories contains one (`Content.Orderable`). Which pairs the engine compares is not specified, so the model cannot tell when that subcategory comes first.
- `Strings.LexLeTotal` and the title comparator use code-point order in place of the locale collation of `localeCompare`.
- `Strings.Lower` lower-cases ASCII letters only: Unicode case mapping is left out.
- Dates are integer timestamps. An unparsable date, which gives `NaN` in the comparator, is not modelled.
- `Sorting.InsertionSort` stands in for the engine's sort, which ECMAScript requires to be stable. The model proves stability of the sort it uses.
- The cloud import keeps only natural keys and parent links:
  - area `name`;
  - subcategory `uniqueId` with its area;
  - video `youtubeId` with its subcategory.
  The other attributes it copies into new objects are not modelled. The cloud function reads the payload fields `area`, `uniqueId` and `youtubeId`. It queries and sets the Parse fields `name`, `subcategoryId` and `parentArea`, while the frontend reads `area`, `uniqueId` and an `area` pointer. Each side is modelled with its own names, and the store is keyed by the payload's values.
- `CloudImport.Summary` is stated through its two prefixes and the error count, not as the full message text.

## Findings

| source | as written | input that shows it | evidently intended | confidence | as-written member | corrected member |
|---|---|---|---|---|---|---|
| frontend/hub.approvideo.org/integration-functions.js:548-550 | the role is looked up on a plain object, so a role that names an inherited member (`constructor`, `toString`, `__proto__`, …) yields a function or object; `\|\| []` does not replace it, and `.includes` throws a TypeError | a signed-in user whose `role` is `"constructor"` calling `hasPermission("read")` | a role outside the table grants nothing and the check answers false | not executed | Auth.HasPermissionAsWritten (with Auth.ConstructorRoleThrows) | Auth.HasPermission (with Auth.AsWrittenAgreesElsewhere) |

=== FILE: analytics.dfy ===
/** `AdvancedAnalytics`: `advancedSearch`, `getTagUsage` and
    `getTopViewedVideos`, over the admin store's video and subcategory lists. */
module Analytics {
  import opened Wrappers
  import opened Strings
  import opened Seqs
  import opened Sorting
  import opened Entities

  /** Accepted by `advancedSearch` but never applied. */
  datatype DateRange = DateRange(start: int, end: int)

  /** The `filters` object as the caller passes it. A `minViews` or
      `hasYouTubeId` of `null` behaves as the default does, so those two need
      no `Arg`. */
  datatype FilterFields = FilterFields(
    areas: Arg<seq<string>>,     // area ids
    tags: Arg<seq<string>>,
    dateRange: Option<DateRange>,
    minViews: int,
    hasYouTubeId: Option<bool>,
    creators: Arg<seq<string>>)

  /** `{}`, the default of the `filters` parameter. */
  const EmptyFields := FilterFields(Undefined, Undefined, None, 0, None, Undefined)

  /** The filters after destructuring, with the list defaults applied. */
  datatype SearchFilters = SearchFilters(
    areas: seq<string>,
    tags: seq<string>,
    dateRange: Option<DateRange>,
    minViews: int,
    hasYouTubeId: Option<bool>,
    creators: seq<string>)

  /** The destructuring defaults of `filters = {}`. */
  const NoFilters := SearchFilters([], [], None, 0, None, [])

  datatype SearchResult = SearchResult(
    results: seq<Video>, totalFound: nat, filters: FilterFields, query: Option<string>)

  /** A list field after its `= []` default: `null` stays `null`, and its
      `.length` throws. */
  function ListDefault(a: Arg<seq<string>>): (r: Option<seq<string>>)
    ensures r.None? <==> a.Null?
    ensures a.Given? ==> r == Some(a.value)
    ensures a.Undefined? ==> r == Some([])
  {
    match a
    case Undefined => Some([])
    case Null => None
    case Given(s) => Some(s)
  }

  /** The `const { areas = [], ... } = filters` destructuring together with the
      first `.length` on each list: `None` when either throws. */
  function Destructure(filters: Arg<FilterFields>): (r: Option<SearchFilters>)
    ensures r.None? <==> filters.Null? ||
                           (filters.Given? && (filters.value.areas.Null? || filters.value.tags.Null? || filters.value.creators.Null?))
    ensures filters.Undefined? ==> r == Some(NoFilters)
    ensures filters.Given? && r.Some? ==>
              && r.value.dateRange == filters.value.dateRange
              && r.value.minViews == filters.value.minViews
              && r.value.hasYouTubeId == filters.value.hasYouTubeId
              && (filters.value.areas.Given? ==> r.value.areas == filters.value.areas.value)
              && (filters.value.tags.Given? ==> r.value.tags == filters.value.tags.value)
              && (filters.value.creators.Given? ==> r.value.creators == filters.value.creators.value)
              && (filters.value.areas.Undefined? ==> r.value.areas == [])
              && (filters.value.tags.Undefined? ==> r.value.tags == [])
              && (filters.value.creators.Undefined? ==> r.value.creators == [])
  {
    match filters
    case Undefined => Some(NoFilters)
    case Null => None
    case Given(f) =>
      var areas := ListDefault(f.areas);
      var tags := ListDefault(f.tags);
      var creators := ListDefault(f.creators);
      if areas.None? || tags.None? || creators.None? then None
      else Some(SearchFilters(areas.value, tags.value, f.dateRange, f.minViews, f.hasYouTubeId, creators.value))
  }

  /** The `filters` object whose destructuring gives `f`. */
  function Fields(f: SearchFilters): FilterFields {
    FilterFields(Given(f.areas), Given(f.tags), f.dateRange, f.minViews, f.hasYouTubeId, Given(f.creators))
  }

  /** Destructuring a filters object that spells every list out gives its
      fields back. */
  lemma DestructureFields(f: SearchFilters)
    ensures Destructure(Given(Fields(f))) == Some(f)
  {
  }

  // ------------------------------------------------------------- predicates

  /** Case-insensitive match of the lower-cased query against the title, the
      description or one of the tags. */
  predicate TextMatches(v: Video, term: string) {
    || Contains(Lower(v.title.GetOr("")), term)
    || (Truthy(v.description) && Contains(Lower(v.description.value), term))
    || exists i :: 0 <= i < |v.tags| && Contains(Lower(v.tags[i]), term)
  }

  /** Ids of the subcategories that belong to one of `areas`. */
  function AreaSubcategoryIds(subs: seq<Subcategory>, areas: seq<string>): (ids: seq<string>)
    ensures forall id :: id in ids <==> exists j :: 0 <= j < |subs| && subs[j].id == id && subs[j].areaId.Some? && subs[j].areaId.value in areas
  {
    var inAreas := Filter(subs, (s: Subcategory) => s.areaId.Some? && s.areaId.value in areas);
    var ids := Map(inAreas, (s: Subcategory) => s.id);
    assert forall id :: id in ids ==> exists j :: 0 <= j < |subs| && subs[j].id == id && subs[j].areaId.Some? && subs[j].areaId.value in areas by {
      forall id | id in ids
        ensures exists j :: 0 <= j < |subs| && subs[j].id == id && subs[j].areaId.Some? && subs[j].areaId.value in areas
      {
        var k :| 0 <= k < |ids| && ids[k] == id;
        var j :| 0 <= j < |subs| && subs[j] == inAreas[k];
      }
    }
    assert forall j :: 0 <= j < |subs| && subs[j].areaId.Some? && subs[j].areaId.value in areas ==> subs[j].id in ids by {
      forall j | 0 <= j < |subs| && subs[j].areaId.Some? && subs[j].areaId.value in areas
        ensures subs[j].id in ids
      {
        var k :| 0 <= k < |inAreas| && inAreas[k] == subs[j];
        assert ids[k] == subs[j].id;
      }
    }
    ids
  }

  predicate InAreas(v: Video, ids: seq<string>) {
    exists i :: 0 <= i < |v.categories| && v.categories[i] in ids
  }

  /** `tags.some(tag => video.tags.includes(tag))`: exact, case-sensitive. */
  predicate HasAnyTag(v: Video, tags: seq<string>) {
    exists i :: 0 <= i < |tags| && tags[i] in v.tags
  }

  predicate HasYouTubeId(v: Video) {
    Truthy(v.youtubeId)
  }

  predicate CreatorListed(v: Video, creators: seq<string>) {
    Truthy(v.creator) && v.creator.value in creators
  }

  /** Every active filter at once; an inactive filter (absent or empty query,
      empty list, `minViews <= 0`, `hasYouTubeId` null) accepts everything. */
  predicate Satisfies(v: Video, subs: seq<Subcategory>, query: Option<string>, f: SearchFilters) {
    && (Truthy(query) ==> TextMatches(v, Lower(query.value)))
    && (|f.areas| > 0 ==> InAreas(v, AreaSubcategoryIds(subs, f.areas)))
    && (|f.tags| > 0 ==> HasAnyTag(v, f.tags))
    && (f.minViews > 0 ==> v.views >= f.minViews)
    && (f.hasYouTubeId.Some? ==> f.hasYouTubeId == Some(HasYouTubeId(v)))
    && (|f.creators| > 0 ==> CreatorListed(v, f.creators))
  }

  /** The videos a search should return, selected in one pass. */
  function Selected(videos: seq<Video>, subs: seq<Subcategory>, query: Option<string>, f: SearchFilters): (r: seq<Video>)
    ensures IsSubsequence(r, videos)
    ensures forall i :: 0 <= i < |videos| ==> (videos[i] in r <==> Satisfies(videos[i], subs, query, f))
    ensures forall i :: 0 <= i < |r| ==> Satisfies(r[i], subs, query, f)
    ensures |r| == CountIf(videos, (v: Video) => Satisfies(v, subs, query, f))
  {
    FilterIsSubsequence(videos, (v: Video) => Satisfies(v, subs, query, f));
    FilterLength(videos, (v: Video) => Satisfies(v, subs, query, f));
    Filter(videos, (v: Video) => Satisfies(v, subs, query, f))
  }

  // ------------------------------------------------------------- the search

  /** The six `if (...) results = results.filter(...)` steps. */
  datatype Axis = TextAxis | AreaAxis | TagAxis | ViewsAxis | YouTubeAxis | CreatorAxis

  /** The order in which `advancedSearch` applies them. */
  const SourceOrder: seq<Axis> := [TextAxis, AreaAxis, TagAxis, ViewsAxis, YouTubeAxis, CreatorAxis]

  /** The guard of each step. */
  predicate Active(a: Axis, query: Option<string>, f: SearchFilters) {
    match a
    case TextAxis => Truthy(query)
    case AreaAxis => |f.areas| > 0
    case TagAxis => |f.tags| > 0
    case ViewsAxis => f.minViews > 0
    case YouTubeAxis => f.hasYouTubeId.Some?
    case CreatorAxis => |f.creators| > 0
  }

  /** The callback each step passes to `filter`. */
  predicate Accepts(a: Axis, v: Video, subs: seq<Subcategory>, query: Option<string>, f: SearchFilters) {
    match a
    case TextAxis => TextMatches(v, Lower(query.GetOr("")))
    case AreaAxis => InAreas(v, AreaSubcategoryIds(subs, f.areas))
    case TagAxis => HasAnyTag(v, f.tags)
    case ViewsAxis => v.views >= f.minViews
    case YouTubeAxis => f.hasYouTubeId == Some(HasYouTubeId(v))
    case CreatorAxis => CreatorListed(v, f.creators)
  }

  /** `v` passes every active step among `axes`. */
  predicate PassesAll(v: Video, axes: seq<Axis>, subs: seq<Subcategory>, query: Option<string>, f: SearchFilters) {
    forall i :: 0 <= i < |axes| ==> Active(axes[i], query, f) ==> Accepts(axes[i], v, subs, query, f)
  }

  /** The steps `axes` applied one after the other. */
  function Chain(videos: seq<Video>, axes: seq<Axis>, subs: seq<Subcategory>, query: Option<string>, f: SearchFilters): seq<Video> {
    if |axes| == 0 then videos
    else
      var a := axes[|axes| - 1];
      var prev := Chain(videos, axes[..|axes| - 1], subs, query, f);
      if Active(a, query, f) then Filter(prev, (v: Video) => Accepts(a, v, subs, query, f)) else prev
  }

  /** Chaining the steps selects the same videos, in the same order, as one
      filter by all of them. */
  lemma {:induction false} ChainIsConjunction(videos: seq<Video>, axes: seq<Axis>, subs: seq<Subcategory>, query: Option<string>, f: SearchFilters)
    ensures Chain(videos, axes, subs, query, f) == Filter(videos, (v: Video) => PassesAll(v, axes, subs, query, f))
  {
    if |axes| == 0 {
      FilterIsSubsequence(videos, (v: Video) => PassesAll(v, axes, subs, query, f));
    } else {
      var n := |axes| - 1;
      var a := axes[n];
      ChainIsConjunction(videos, axes[..n], subs, query, f);
      var acc := (v: Video) => PassesAll(v, axes[..n], subs, query, f);
      var acc2 := (v: Video) => PassesAll(v, axes, subs, query, f);
      assert forall v :: acc2(v) == (acc(v) && (Active(a, query, f) ==> Accepts(a, v, subs, query, f))) by {
        forall v: Video
          ensures acc2(v) == (acc(v) && (Active(a, query, f) ==> Accepts(a, v, subs, query, f)))
        {
          assert forall i :: 0 <= i < n ==> axes[..n][i] == axes[i];
        }
      }
      if Active(a, query, f) {
        FilterFilter(videos, acc, (v: Video) => Accepts(a, v, subs, query, f), acc2);
      } else {
        FilterExtensional(videos, acc, acc2);
      }
    }
  }

  /** Passing the six steps of the source is satisfying every active filter. */
  lemma PassesSourceOrder(v: Video, subs: seq<Subcategory>, query: Option<string>, f: SearchFilters)
    ensures PassesAll(v, SourceOrder, subs, query, f) == Satisfies(v, subs, query, f)
  {
    if Satisfies(v, subs, query, f) {
      forall i | 0 <= i < |SourceOrder| && Active(SourceOrder[i], query, f)
        ensures Accepts(SourceOrder[i], v, subs, query, f)
      {
      }
    } else {
      assert !PassesAll(v, SourceOrder, subs, query, f) by {
        var ok0 := Active(TextAxis, query, f) ==> Accepts(TextAxis, v, subs, query, f);
        assert SourceOrder[0] == TextAxis && SourceOrder[1] == AreaAxis && SourceOrder[2] == TagAxis;
        assert SourceOrder[3] == ViewsAxis && SourceOrder[4] == YouTubeAxis && SourceOrder[5] == CreatorAxis;
      }
    }
  }

  /** The filter chain of `advancedSearch` equals the one-pass selection. */
  lemma SearchIsConjunction(videos: seq<Video>, subs: seq<Subcategory>, query: Option<string>, f: SearchFilters)
    ensures Chain(videos, SourceOrder, subs, query, f) == Selected(videos, subs, query, f)
  {
    ChainIsConjunction(videos, SourceOrder, subs, query, f);
    forall v: Video
      ensures PassesAll(v, SourceOrder, subs, query, f) == Satisfies(v, subs, query, f)
    {
      PassesSourceOrder(v, subs, query, f);
    }
    FilterExtensional(videos, (v: Video) => PassesAll(v, SourceOrder, subs, query, f), (v: Video) => Satisfies(v, subs, query, f));
  }

  /** `advancedSearch(query, filters)`. It throws when `filters` or one of its
      list fields is `null`, and (`video.title.toLowerCase()`) when a query
      is given and some video has no title. */
  function AdvancedSearch(videos: seq<Video>, subs: seq<Subcategory>, query: Option<string>, filters: Arg<FilterFields>): (r: Option<SearchResult>)
    ensures r.None? <==> Destructure(filters).None? || (Truthy(query) && exists i :: 0 <= i < |videos| && videos[i].title.None?)
    ensures r.Some? ==> r.value.results == Selected(videos, subs, query, Destructure(filters).value)
    ensures r.Some? ==> r.value.totalFound == |r.value.results|
    ensures r.Some? ==> r.value.filters == (if filters.Given? then filters.value else EmptyFields) && r.value.query == query
  {
    match Destructure(filters)
    case None => None
    case Some(f) =>
      if Truthy(query) && exists i :: 0 <= i < |videos| && videos[i].title.None? then None
      else
        var results := Chain(videos, SourceOrder, subs, query, f);
        SearchIsConjunction(videos, subs, query, f);
        Some(SearchResult(results, |results|, if filters.Given? then filters.value else EmptyFields, query))
  }

  /** No filter at all returns every video, in order. */
  lemma NoFiltersReturnEverything(videos: seq<Video>, subs: seq<Subcategory>)
    ensures AdvancedSearch(videos, subs, None, Undefined) == Some(SearchResult(videos, |videos|, EmptyFields, None))
  {
    FilterIsSubsequence(videos, (v: Video) => Satisfies(v, subs, None, NoFilters));
  }

  /** A `null` list filter throws whatever the other arguments. */
  lemma NullListThrows(videos: seq<Video>, subs: seq<Subcategory>, query: Option<string>, f: FilterFields)
    requires f.areas.Null? || f.tags.Null? || f.creators.Null?
    ensures AdvancedSearch(videos, subs, query, Given(f)).None?
  {
  }

  /** `dateRange` is accepted and has no effect on the results. */
  lemma DateRangeIsIgnored(videos: seq<Video>, subs: seq<Subcategory>, query: Option<string>, f: FilterFields, d: Option<DateRange>)
    ensures AdvancedSearch(videos, subs, query, Given(f.(dateRange := d))).Some? == AdvancedSearch(videos, subs, query, Given(f)).Some?
    ensures AdvancedSearch(videos, subs, query, Given(f)).Some? ==>
              AdvancedSearch(videos, subs, query, Given(f.(dateRange := d))).value.results ==
              AdvancedSearch(videos, subs, query, Given(f)).value.results
  {
    if Destructure(Given(f)).Some? {
      var d0 := Destructure(Given(f)).value;
      var g := Destructure(Given(f.(dateRange := d))).value;
      assert g == d0.(dateRange := d);
      DateRangeIsIgnoredBySelection(videos, subs, query, d0, d);
    }
  }

  /** `dateRange` plays no part in the one-pass selection. */
  lemma DateRangeIsIgnoredBySelection(videos: seq<Video>, subs: seq<Subcategory>, query: Option<string>, f: SearchFilters, d: Option<DateRange>)
    ensures Selected(videos, subs, query, f.(dateRange := d)) == Selected(videos, subs, query, f)
  {
    var g := f.(dateRange := d);
    assert g.areas == f.areas && g.tags == f.tags && g.minViews == f.minViews;
    assert g.hasYouTubeId == f.hasYouTubeId && g.creators == f.creators;
    forall i | 0 <= i < |videos|
      ensures Satisfies(videos[i], subs, query, g) == Satisfies(videos[i], subs, query, f)
    {
    }
    FilterExtensional(videos, (v: Video) => Satisfies(v, subs, query, g), (v: Video) => Satisfies(v, subs, query, f));
    assert Selected(videos, subs, query, g) == Selected(videos, subs, query, f);
  }

  /** A video tagged "Bamboo" (capital B). */
  function BambooVideo(): Video {
    Video("V1", Some("Gabion Wall"), None, None, [], ["Bamboo"], 0, 0, None, None, "",
          DefaultLicence, "", DefaultVideoIcon, DefaultVideoColor, 0, 0)
  }

  lemma BambooVideoMatchesText()
    ensures Satisfies(BambooVideo(), [], Some("bamboo"), NoFilters)
  {
    var v := BambooVideo();
    LowerOfLowerCase("bamboo");
    var t := Lower(v.tags[0]);
    assert t == "bamboo" by {
      assert |t| == 6 && t[0] == 'b';
      assert forall i :: 1 <= i < 6 ==> t[i] == "Bamboo"[i];
    }
    assert Contains(t, "bamboo");
  }

  lemma LowerOfLowerCase(s: string)
    requires forall i :: 0 <= i < |s| ==> !IsUpper(s[i])
    ensures Lower(s) == s
  {
  }

  /** Searching a single video returns it exactly when it satisfies the filters. */
  lemma SelectedOfOne(v: Video, subs: seq<Subcategory>, query: Option<string>, f: SearchFilters)
    ensures Selected([v], subs, query, f) == if Satisfies(v, subs, query, f) then [v] else []
  {
    assert [v][1..] == [];
  }

  /** The text query is case-insensitive: "bamboo" finds the video tagged
      "Bamboo". */
  lemma TextQueryIgnoresCase()
    ensures AdvancedSearch([BambooVideo()], [], Some("bamboo"), Undefined).value.results == [BambooVideo()]
  {
    var v := BambooVideo();
    BambooVideoMatchesText();
    SelectedOfOne(v, [], Some("bamboo"), NoFilters);
  }

  /** The tag filter is case-sensitive: the tag "bamboo" does not select the
      video tagged "Bamboo". */
  lemma TagFilterIsCaseSensitive()
    ensures AdvancedSearch([BambooVideo()], [], None, Given(EmptyFields.(tags := Given(["bamboo"])))).value.results == []
  {
    var v := BambooVideo();
    var f := NoFilters.(tags := ["bamboo"]);
    assert !HasAnyTag(v, ["bamboo"]) by {
      assert "bamboo" !in v.tags;
    }
    SelectedOfOne(v, [], None, f);
  }

  // ------------------------------------------------------------- tag usage

  datatype TagCount = TagCount(tag: string, count: nat)

  /** Every tag of every video, in the order of the nested `forEach`. */
  function AllTags(videos: seq<Video>): seq<string> {
    if |videos| == 0 then [] else AllTags(videos[..|videos| - 1]) + videos[|videos| - 1].tags
  }

  lemma {:induction false} AllTagsContains(videos: seq<Video>, j: nat, k: nat)
    requires j < |videos| && k < |videos[j].tags|
    ensures videos[j].tags[k] in AllTags(videos)
  {
    var n := |videos| - 1;
    if j < n {
      AllTagsContains(videos[..n], j, k);
    } else {
      assert AllTags(videos)[|AllTags(videos[..n])| + k] == videos[j].tags[k];
    }
  }

  /** Some entry of `r` is for tag `t`. */
  predicate Listed(r: seq<TagCount>, t: string) {
    exists i :: 0 <= i < |r| && r[i].tag == t
  }

  predicate DistinctTags(es: seq<TagCount>) {
    forall i, j :: 0 <= i < j < |es| ==> es[i].tag != es[j].tag
  }

  /** The count recorded for `t`, or 0. */
  function CountOf(es: seq<TagCount>, t: string): nat {
    if |es| == 0 then 0 else if es[0].tag == t then es[0].count else CountOf(es[1..], t)
  }

  lemma {:induction false} CountOfEntry(es: seq<TagCount>, i: nat)
    requires DistinctTags(es) && i < |es|
    ensures CountOf(es, es[i].tag) == es[i].count
  {
    if i > 0 {
      CountOfEntry(es[1..], i - 1);
    }
  }

  /** `usage[tag] = (usage[tag] || 0) + 1`. */
  function Bump(es: seq<TagCount>, t: string): (r: seq<TagCount>)
    requires DistinctTags(es)
    ensures DistinctTags(r)
    ensures forall u :: CountOf(r, u) == CountOf(es, u) + (if u == t then 1 else 0)
    ensures forall i :: 0 <= i < |r| ==> r[i].tag == t || exists j :: 0 <= j < |es| && es[j].tag == r[i].tag
    ensures (forall i :: 0 <= i < |es| ==> es[i].count > 0) ==> forall i :: 0 <= i < |r| ==> r[i].count > 0
  {
    if |es| == 0 then [TagCount(t, 1)]
    else if es[0].tag == t then [es[0].(count := es[0].count + 1)] + es[1..]
    else
      var rest := Bump(es[1..], t);
      assert forall i :: 0 <= i < |rest| ==> rest[i].tag != es[0].tag by {
        forall i | 0 <= i < |rest|
          ensures rest[i].tag != es[0].tag
        {
          if rest[i].tag != t {
            var j :| 0 <= j < |es[1..]| && es[1..][j].tag == rest[i].tag;
            assert es[j + 1].tag == rest[i].tag;
          }
        }
      }
      assert forall i :: 0 <= i < |rest| && rest[i].tag != t ==> exists j :: 0 <= j < |es| && es[j].tag == rest[i].tag by {
        forall i | 0 <= i < |rest| && rest[i].tag != t
          ensures exists j :: 0 <= j < |es| && es[j].tag == rest[i].tag
        {
          var j :| 0 <= j < |es[1..]| && es[1..][j].tag == rest[i].tag;
          assert es[j + 1].tag == rest[i].tag;
        }
      }
      [es[0]] + rest
  }

  /** A positive count belongs to an entry of the table. */
  lemma {:induction false} CountOfPositive(es: seq<TagCount>, u: string)
    requires CountOf(es, u) > 0
    ensures exists i :: 0 <= i < |es| && es[i].tag == u
  {
    if es[0].tag != u {
      CountOfPositive(es[1..], u);
      var i :| 0 <= i < |es[1..]| && es[1..][i].tag == u;
      assert es[i + 1].tag == u;
    }
  }

  /** How many occurrences of `u` the usage object ends up holding: all of
      them, except for `__proto__`, whose writes the object ignores. */
  function Tally(ts: seq<string>, u: string): nat {
    if u == ProtoKey then 0 else multiset(ts)[u]
  }

  /** The usage table of a list of tag occurrences, in first-occurrence order;
      an occurrence of `__proto__` writes nothing. */
  function Usage(ts: seq<string>): (es: seq<TagCount>)
    ensures DistinctTags(es)
    ensures forall u :: CountOf(es, u) == Tally(ts, u)
    ensures forall i :: 0 <= i < |es| ==> es[i].count > 0
  {
    if |ts| == 0 then []
    else
      var n := |ts| - 1;
      assert ts == ts[..n] + [ts[n]];
      if ts[n] == ProtoKey then Usage(ts[..n]) else Bump(Usage(ts[..n]), ts[n])
  }

  /** The entries sorted by count, highest first. */
  predicate ByCountDesc(a: TagCount, b: TagCount) {
    a.count >= b.count
  }

  /** `getTagUsage`: each tag that occurs on some video once, with the number
      of its occurrences over all videos, highest count first; a tag named
      `__proto__` never reaches the object and is not reported. */
  function GetTagUsage(videos: seq<Video>): (r: seq<TagCount>)
    ensures SortedBy(r, ByCountDesc)
    ensures DistinctTags(r)
    ensures !Listed(r, ProtoKey)
    ensures forall i :: 0 <= i < |r| ==> r[i].tag in AllTags(videos) && r[i].count == multiset(AllTags(videos))[r[i].tag]
    ensures forall j, k :: 0 <= j < |videos| && 0 <= k < |videos[j].tags| && videos[j].tags[k] != ProtoKey ==>
              Listed(r, videos[j].tags[k])
  {
    var es := Usage(AllTags(videos));
    var r := InsertionSort(es, ByCountDesc);
    ReorderedUsage(AllTags(videos), r);
    UsageCoversVideos(videos, r);
    r
  }

  /** A table listing every occurring tag lists every tag of every video. */
  lemma UsageCoversVideos(videos: seq<Video>, r: seq<TagCount>)
    requires forall t :: t in AllTags(videos) && t != ProtoKey ==> Listed(r, t)
    ensures forall j, k :: 0 <= j < |videos| && 0 <= k < |videos[j].tags| && videos[j].tags[k] != ProtoKey ==>
              Listed(r, videos[j].tags[k])
  {
    forall j, k | 0 <= j < |videos| && 0 <= k < |videos[j].tags| && videos[j].tags[k] != ProtoKey
      ensures Listed(r, videos[j].tags[k])
    {
      AllTagsContains(videos, j, k);
    }
  }

  /** A table with distinct tags holds each entry at most once. */
  lemma {:induction false} DistinctAtMostOnce(es: seq<TagCount>, e: TagCount)
    requires DistinctTags(es)
    ensures multiset(es)[e] <= 1
  {
    if |es| > 0 {
      assert es == [es[0]] + es[1..];
      DistinctAtMostOnce(es[1..], e);
      if es[0] == e {
        assert forall k :: 0 <= k < |es[1..]| ==> es[1..][k].tag != e.tag;
      }
    }
  }

  /** Any reordering of the usage table lists exactly the tags that occur,
      other than `__proto__`, each with its number of occurrences. */
  lemma ReorderedUsage(ts: seq<string>, r: seq<TagCount>)
    requires multiset(r) == multiset(Usage(ts))
    ensures forall i :: 0 <= i < |r| ==> r[i].tag in ts && r[i].tag != ProtoKey && r[i].count == multiset(ts)[r[i].tag]
    ensures forall t :: t in ts && t != ProtoKey ==> Listed(r, t)
    ensures DistinctTags(r)
  {
    var es := Usage(ts);
    ReorderedCounts(ts, es, r);
    ReorderedCovers(ts, es, r);
    ReorderedDistinct(es, r);
  }

  /** Each entry of a reordered table carries its tag's number of occurrences. */
  lemma ReorderedCounts(ts: seq<string>, es: seq<TagCount>, r: seq<TagCount>)
    requires multiset(r) == multiset(es) && DistinctTags(es)
    requires forall u :: CountOf(es, u) == Tally(ts, u)
    requires forall i :: 0 <= i < |es| ==> es[i].count > 0
    ensures forall i :: 0 <= i < |r| ==> r[i].tag in ts && r[i].tag != ProtoKey && r[i].count == multiset(ts)[r[i].tag]
  {
    forall i | 0 <= i < |r|
      ensures r[i].tag in ts && r[i].tag != ProtoKey && r[i].count == multiset(ts)[r[i].tag]
    {
      assert r[i] in multiset(es);
      var k :| 0 <= k < |es| && es[k] == r[i];
      CountOfEntry(es, k);
    }
  }

  /** A reordered table still has an entry for every tag that occurs. */
  lemma ReorderedCovers(ts: seq<string>, es: seq<TagCount>, r: seq<TagCount>)
    requires multiset(r) == multiset(es)
    requires forall u :: CountOf(es, u) == Tally(ts, u)
    ensures forall t :: t in ts && t != ProtoKey ==> Listed(r, t)
  {
    forall t | t in ts && t != ProtoKey
      ensures Listed(r, t)
    {
      CountOfPositive(es, t);
      var m :| 0 <= m < |es| && es[m].tag == t;
      assert es[m] in multiset(r);
    }
  }

  /** Reordering a table with distinct tags keeps them distinct. */
  lemma ReorderedDistinct(es: seq<TagCount>, r: seq<TagCount>)
    requires multiset(r) == multiset(es) && DistinctTags(es)
    ensures DistinctTags(r)
  {
    forall i, j | 0 <= i < j < |r|
      ensures r[i].tag != r[j].tag
    {
      DistinctAtMostOnce(es, r[i]);
      if r[i] == r[j] {
        OccursTwice(r, i, j);
      } else {
        assert r[i] in multiset(es) && r[j] in multiset(es);
        var k1 :| 0 <= k1 < |es| && es[k1] == r[i];
        var k2 :| 0 <= k2 < |es| && es[k2] == r[j];
      }
    }
  }

  // ------------------------------------------------------------- top viewed

  datatype VideoSummary = VideoSummary(title: Option<string>, views: int, id: string)

  predicate ByViewsDesc(a: Video, b: Video) {
    a.views >= b.views
  }

  /** The store's video list after the in-place sort, and the summaries of its
      first `limit` entries. */
  datatype TopViewed = TopViewed(store: seq<Video>, top: seq<VideoSummary>)

  const DefaultTopLimit: nat := 10

  /** Where `slice(0, end)` stops on a list of length `len`: a negative end
      counts back from the end of the list. */
  function SliceEnd(end: int, len: nat): (n: nat)
    ensures n <= len
  {
    if end < 0 then (if len + end > 0 then len + end else 0)
    else if end < len then end else len
  }

  /** `getTopViewedVideos(limit)`: sorts the store's list by views, highest
      first, and summarizes the first `limit` videos. */
  function GetTopViewedVideos(videos: seq<Video>, limit: int): (r: TopViewed)
    ensures |r.store| == |videos| && multiset(r.store) == multiset(videos)
    ensures SortedBy(r.store, ByViewsDesc)
    ensures 0 <= limit ==> |r.top| == if limit < |videos| then limit else |videos|
    ensures limit < 0 ==> |r.top| == if |videos| + limit > 0 then |videos| + limit else 0
    ensures forall i :: 0 <= i < |r.top| ==>
              r.top[i] == VideoSummary(r.store[i].title, r.store[i].views, r.store[i].id)
    ensures forall i, j :: 0 <= i < |r.top| <= j < |r.store| ==> r.top[i].views >= r.store[j].views
  {
    var sorted := InsertionSort(videos, ByViewsDesc);
    var n := SliceEnd(limit, |sorted|);
    var top := Map(sorted[..n], (v: Video) => VideoSummary(v.title, v.views, v.id));
    TopViewed(sorted, top)
  }

  lemma ViewsOrderIsTotalPreorder()
    ensures TotalPreorder(ByViewsDesc)
  {
  }

  /** The sort is stable: videos with the same view count stay in the order
      the store had them. */
  lemma TopViewedIsStable(videos: seq<Video>, limit: int, k: Video)
    ensures EquivalentTo(GetTopViewedVideos(videos, limit).store, ByViewsDesc, k) == EquivalentTo(videos, ByViewsDesc, k)
  {
    ViewsOrderIsTotalPreorder();
    InsertionSortIsStable(videos, ByViewsDesc, k);
  }
}

=== FILE: auth.dfy ===
/** `AuthManager.hasPermission`: a fixed role → actions table and the
    signed-in user's role, defaulting to viewer. */
module Auth {
  import opened Wrappers
  import opened Strings

  /** The signed-in Parse user, reduced to its `role` attribute. */
  datatype User = User(role: Option<string>)

  const DefaultRole := "viewer"

  /** The permissions table set up by the constructor. */
  const Permissions: map<string, seq<string>> := map[
    "admin" := ["create", "read", "update", "delete", "export", "import"],
    "editor" := ["create", "read", "update"],
    "viewer" := ["read"]
  ]

  /** Names every plain JavaScript object inherits from `Object.prototype`;
      looking one of them up in the table yields a function or an object
      that has no `includes` method. */
  const InheritedNames: set<string> := {
    "constructor", "__proto__", "hasOwnProperty", "isPrototypeOf",
    "propertyIsEnumerable", "toLocaleString", "toString", "valueOf",
    "__defineGetter__", "__defineSetter__", "__lookupGetter__", "__lookupSetter__"
  }

  /** A missing or empty role counts as viewer. */
  function EffectiveRole(u: User): (r: string)
    ensures r != ""
    ensures Truthy(u.role) ==> r == u.role.value
    ensures !Truthy(u.role) ==> r == DefaultRole
  {
    OrDefault(u.role, DefaultRole)
  }

  /** The check as the source writes it: an inherited name used as a role
      makes `rolePermissions.includes` throw a TypeError. */
  function HasPermissionAsWritten(current: Option<User>, action: string): (r: Result<bool, string>)
    ensures current.None? ==> r == Success(false)
    ensures r.Failure? <==> current.Some? && EffectiveRole(current.value) in InheritedNames
  {
    if current.None? then Success(false)
    else
      var role := EffectiveRole(current.value);
      if role in Permissions then Success(action in Permissions[role])
      else if role in InheritedNames then Failure("TypeError: rolePermissions.includes is not a function")
      else Success(false)
  }

  /** The intended check: only the table's own roles grant anything; every
      other role, inherited names included, grants nothing. */
  function HasPermission(current: Option<User>, action: string): (r: bool)
    ensures r ==> current.Some?
    ensures r ==> exists role :: role in Permissions && action in Permissions[role]
    ensures current.Some? && EffectiveRole(current.value) !in Permissions ==> !r
    ensures current.Some? && EffectiveRole(current.value) in Permissions ==>
              (r <==> action in Permissions[EffectiveRole(current.value)])
    ensures current.Some? && !Truthy(current.value.role) ==> (r <==> action == "read")
  {
    current.Some? && EffectiveRole(current.value) in Permissions
      && action in Permissions[EffectiveRole(current.value)]
  }

  /** A user whose role is "constructor" makes the written check throw
      instead of answering false. */
  lemma ConstructorRoleThrows()
    ensures HasPermissionAsWritten(Some(User(Some("constructor"))), "read").Failure?
    ensures !HasPermission(Some(User(Some("constructor"))), "read")
  {
    assert "constructor" !in Permissions;
  }

  /** Away from inherited names the written check and the corrected one agree. */
  lemma AsWrittenAgreesElsewhere(current: Option<User>, action: string)
    requires current.Some? ==> EffectiveRole(current.value) !in InheritedNames
    ensures HasPermissionAsWritten(current, action) == Success(HasPermission(current, action))
  {
  }

  /** Roles are nested: whatever a viewer may do an editor may do, and
      whatever an editor may do an admin may do. */
  lemma RolesAreNested(action: string)
    ensures HasPermission(Some(User(Some("viewer"))), action) ==> HasPermission(Some(User(Some("editor"))), action)
    ensures HasPermission(Some(User(Some("editor"))), action) ==> HasPermission(Some(User(Some("admin"))), action)
  {
  }

  /** Each role of the table is granted exactly the actions it lists. */
  lemma RoleGrants(action: string)
    ensures HasPermission(Some(User(Some("viewer"))), action) <==> action == "read"
    ensures HasPermission(Some(User(Some("editor"))), action) <==> action in {"create", "read", "update"}
    ensures HasPermission(Some(User(Some("admin"))), action) <==>
              action in {"create", "read", "update", "delete", "export", "import"}
  {
  }

  /** Only an admin may delete, export or import. */
  lemma OnlyAdminMayDelete(current: Option<User>)
    requires HasPermission(current, "delete") || HasPermission(current, "export") || HasPermission(current, "import")
    ensures EffectiveRole(current.value) == "admin"
  {
  }
}

=== FILE: bulk_import.dfy ===
/** `BulkOperations.importFromJSON` with `bulkImportTags`, `bulkImportAreas` and
    their validators. Each item is validated, looked up by its natural key in
    the store, and then updated, created or skipped; a failing item is recorded
    and the loop moves on. The store is the list of records the admin store
    holds; which store writes throw is given as the set `failing` of item
    positions. */
module BulkImport {
  import opened Wrappers
  import opened Strings
  import opened Seqs

  const MaxTagNameLength := 50
  const MaxAreaNameLength := 100

  datatype TagData = TagData(name: Option<string>, definition: Option<string>, color: Option<string>)
  datatype AreaData = AreaData(area: Option<string>, icon: Option<string>, description: Option<string>)

  datatype ImportError<T> = Invalid(item: T, messages: seq<string>) | WriteFailed(item: T)
  datatype ImportResults<T> = ImportResults(created: nat, updated: nat, errors: seq<ImportError<T>>)

  /** What happened to one item; `Skipped` is an existing record left alone. */
  datatype Outcome = Created | Updated | Skipped | Rejected | Failed

  /** `overwriteExisting` (default off) and `validateData` (default on). */
  datatype Policy = Policy(overwriteExisting: bool, validateData: bool)

  const DefaultPolicy := Policy(false, true)

  /** The store after a run, the results object, and one outcome per item. */
  datatype Batch<T> = Batch(store: seq<T>, results: ImportResults<T>, outcomes: seq<Outcome>)

  function ValidateTagData(d: TagData): (errors: seq<string>)
    ensures |errors| > 0 <==> !Truthy(d.name) || Utf16Length(d.name.value) > MaxTagNameLength
    ensures |errors| <= 1
  {
    (if !Truthy(d.name) then ["Name is required"] else [])
    + (if Truthy(d.name) && Utf16Length(d.name.value) > MaxTagNameLength then ["Name too long"] else [])
  }

  function ValidateAreaData(d: AreaData): (errors: seq<string>)
    ensures |errors| > 0 <==> !Truthy(d.area) || Utf16Length(d.area.value) > MaxAreaNameLength
    ensures |errors| <= 1
  {
    (if !Truthy(d.area) then ["Area name is required"] else [])
    + (if Truthy(d.area) && Utf16Length(d.area.value) > MaxAreaNameLength then ["Area name too long"] else [])
  }

  /** Lengths are JavaScript lengths: twenty-six emoji outside the Basic
      Multilingual Plane are twenty-six characters but fifty-two UTF-16 code
      units, so they are too long for a tag name. */
  lemma AstralTagNameTooLong()
    ensures var s := seq(26, _ => '\U{1F600}');
            |s| <= MaxTagNameLength && ValidateTagData(TagData(Some(s), None, None)) == ["Name too long"]
  {
    var s := seq(26, _ => '\U{1F600}');
    assert forall i :: 0 <= i < |s| ==> s[i] as int >= 0x1_0000;
    assert Utf16Length(s) == 52;
  }

  predicate HasKey<T>(store: seq<T>, key: T -> Option<string>, k: Option<string>) {
    exists i :: 0 <= i < |store| && key(store[i]) == k
  }

  /** `store.find(x => key(x) === k)`, as a position. */
  function FindByKey<T>(store: seq<T>, key: T -> Option<string>, k: Option<string>): (r: Option<nat>)
    ensures r.Some? ==> r.value < |store| && key(store[r.value]) == k
    ensures r.Some? ==> forall j :: 0 <= j < r.value ==> key(store[j]) != k
    ensures r.None? <==> !HasKey(store, key, k)
  {
    if |store| == 0 then None
    else if key(store[0]) == k then Some(0)
    else
      var r := FindByKey(store[1..], key, k);
      assert HasKey(store, key, k) ==> HasKey(store[1..], key, k) by {
        if HasKey(store, key, k) {
          var i :| 0 <= i < |store| && key(store[i]) == k;
          assert key(store[1..][i - 1]) == k;
        }
      }
      if r.None? then None else Some(r.value + 1)
  }

  /** The natural keys present in a store. */
  function Keys<T>(store: seq<T>, key: T -> Option<string>): set<Option<string>> {
    set i | 0 <= i < |store| :: key(store[i])
  }

  /** One iteration of the import loop, for the item at position `pos`. */
  function ImportOne<T>(
    b: Batch<T>, item: T, pos: nat, key: T -> Option<string>, validate: T -> seq<string>,
    policy: Policy, failing: set<nat>
  ): (r: Batch<T>)
    ensures |r.outcomes| == |b.outcomes| + 1 && r.outcomes == b.outcomes + [r.outcomes[|b.outcomes|]]
    ensures var o := r.outcomes[|b.outcomes|];
      && (o == Rejected <==> policy.validateData && |validate(item)| > 0)
      && (o == Created <==> o != Rejected && !HasKey(b.store, key, key(item)) && pos !in failing)
      && (o == Updated <==> o != Rejected && HasKey(b.store, key, key(item)) && policy.overwriteExisting && pos !in failing)
      && (o == Skipped <==> o != Rejected && HasKey(b.store, key, key(item)) && !policy.overwriteExisting)
    ensures var o := r.outcomes[|b.outcomes|];
      && (o == Rejected ==> r.store == b.store && r.results == b.results.(errors := b.results.errors + [Invalid(item, validate(item))]))
      && (o == Failed ==> r.store == b.store && r.results == b.results.(errors := b.results.errors + [WriteFailed(item)]))
      && (o == Skipped ==> r.store == b.store && r.results == b.results)
      && (o == Created ==> r.store == b.store + [item] && r.results == b.results.(created := b.results.created + 1))
      && (o == Updated ==> r.results == b.results.(updated := b.results.updated + 1))
    ensures var o := r.outcomes[|b.outcomes|];
      o == Updated ==>
        && |r.store| == |b.store|
        && exists k :: 0 <= k < |b.store| && key(b.store[k]) == key(item) && r.store == b.store[k := item]
                       && forall j :: 0 <= j < k ==> key(b.store[j]) != key(item)
  {
    var res := b.results;
    if policy.validateData && |validate(item)| > 0 then
      Batch(b.store, res.(errors := res.errors + [Invalid(item, validate(item))]), b.outcomes + [Rejected])
    else
      match FindByKey(b.store, key, key(item))
      case Some(k) =>
        if !policy.overwriteExisting then Batch(b.store, res, b.outcomes + [Skipped])
        else if pos in failing then Batch(b.store, res.(errors := res.errors + [WriteFailed(item)]), b.outcomes + [Failed])
        else Batch(b.store[k := item], res.(updated := res.updated + 1), b.outcomes + [Updated])
      case None =>
        if pos in failing then Batch(b.store, res.(errors := res.errors + [WriteFailed(item)]), b.outcomes + [Failed])
        else Batch(b.store + [item], res.(created := res.created + 1), b.outcomes + [Created])
  }

  /** The `for ... of` loop over all items, from an empty results object. */
  function ImportAll<T>(
    items: seq<T>, store: seq<T>, key: T -> Option<string>, validate: T -> seq<string>,
    policy: Policy, failing: set<nat>
  ): (b: Batch<T>)
    ensures |b.outcomes| == |items|
  {
    if |items| == 0 then Batch(store, ImportResults(0, 0, []), [])
    else
      var n := |items| - 1;
      ImportOne(ImportAll(items[..n], store, key, validate, policy, failing), items[n], n, key, validate, policy, failing)
  }

  predicate IsCreated(o: Outcome) { o == Created }
  predicate IsUpdated(o: Outcome) { o == Updated }
  predicate IsError(o: Outcome) { o == Rejected || o == Failed }

  /** The counters tally the outcomes: `created`, `updated` and `errors` count
      the items whose outcome is, respectively, created, updated, and rejected
      or failed. */
  lemma {:induction false} ImportAccounting<T>(
    items: seq<T>, store: seq<T>, key: T -> Option<string>, validate: T -> seq<string>,
    policy: Policy, failing: set<nat>)
    ensures var b := ImportAll(items, store, key, validate, policy, failing);
      && b.results.created == CountIf(b.outcomes, IsCreated)
      && b.results.updated == CountIf(b.outcomes, IsUpdated)
      && |b.results.errors| == CountIf(b.outcomes, IsError)
  {
    if |items| > 0 {
      var n := |items| - 1;
      var b0 := ImportAll(items[..n], store, key, validate, policy, failing);
      ImportAccounting(items[..n], store, key, validate, policy, failing);
      var b := ImportAll(items, store, key, validate, policy, failing);
      var o := b.outcomes[n];
      assert b.outcomes == b0.outcomes + [o];
      CountIfAppend(b0.outcomes, [o], IsCreated);
      CountIfAppend(b0.outcomes, [o], IsUpdated);
      CountIfAppend(b0.outcomes, [o], IsError);
    }
  }

  /** Each item moves at most one counter, so together they never exceed the
      number of items. */
  lemma ImportCountersBounded<T>(
    items: seq<T>, store: seq<T>, key: T -> Option<string>, validate: T -> seq<string>,
    policy: Policy, failing: set<nat>)
    ensures var b := ImportAll(items, store, key, validate, policy, failing);
      b.results.created + b.results.updated + |b.results.errors| <= |items|
  {
    ImportAccounting(items, store, key, validate, policy, failing);
    CountsAreDisjoint(ImportAll(items, store, key, validate, policy, failing).outcomes);
  }

  lemma {:induction false} CountsAreDisjoint(os: seq<Outcome>)
    ensures CountIf(os, IsCreated) + CountIf(os, IsUpdated) + CountIf(os, IsError) <= |os|
  {
    if |os| > 0 {
      CountsAreDisjoint(os[1..]);
    }
  }

  /** One bad item never aborts the batch: an item is rejected exactly when it
      fails validation, whatever the other items and the store hold. */
  lemma {:induction false} RejectedExactlyWhenInvalid<T>(
    items: seq<T>, store: seq<T>, key: T -> Option<string>, validate: T -> seq<string>,
    policy: Policy, failing: set<nat>)
    ensures var b := ImportAll(items, store, key, validate, policy, failing);
      forall i :: 0 <= i < |items| ==> (b.outcomes[i] == Rejected <==> policy.validateData && |validate(items[i])| > 0)
  {
    if |items| > 0 {
      var n := |items| - 1;
      RejectedExactlyWhenInvalid(items[..n], store, key, validate, policy, failing);
      var b0 := ImportAll(items[..n], store, key, validate, policy, failing);
      var b := ImportAll(items, store, key, validate, policy, failing);
      assert b.outcomes == b0.outcomes + [b.outcomes[n]];
      assert forall i :: 0 <= i < n ==> items[..n][i] == items[i];
    }
  }

  /** Keys are never lost, and every item that passed validation and whose
      write did not fail has its key in the store afterwards. */
  lemma {:induction false} ImportStoresKeys<T>(
    items: seq<T>, store: seq<T>, key: T -> Option<string>, validate: T -> seq<string>,
    policy: Policy, failing: set<nat>)
    ensures var b := ImportAll(items, store, key, validate, policy, failing);
      && Keys(store, key) <= Keys(b.store, key)
      && forall i :: 0 <= i < |items| && i !in failing && !(policy.validateData && |validate(items[i])| > 0)
           ==> key(items[i]) in Keys(b.store, key)
  {
    if |items| > 0 {
      var n := |items| - 1;
      ImportStoresKeys(items[..n], store, key, validate, policy, failing);
      var b0 := ImportAll(items[..n], store, key, validate, policy, failing);
      var b := ImportAll(items, store, key, validate, policy, failing);
      assert Keys(b0.store, key) <= Keys(b.store, key) by {
        forall k | k in Keys(b0.store, key)
          ensures k in Keys(b.store, key)
        {
          var i :| 0 <= i < |b0.store| && key(b0.store[i]) == k;
          var o := b.outcomes[n];
          if o == Created {
            assert b.store[i] == b0.store[i];
          } else if o == Updated {
            var m :| 0 <= m < |b0.store| && key(b0.store[m]) == key(items[n]) && b.store == b0.store[m := items[n]];
            assert key(b.store[i]) == k;
          }
        }
      }
      forall i | 0 <= i < |items| && i !in failing && !(policy.validateData && |validate(items[i])| > 0)
        ensures key(items[i]) in Keys(b.store, key)
      {
        if i < n {
          assert items[..n][i] == items[i];
        } else {
          var o := b.outcomes[n];
          if o == Created {
            assert b.store[|b0.store|] == items[n];
          } else if o == Updated {
            var m :| 0 <= m < |b0.store| && key(b0.store[m]) == key(items[n]) && b.store == b0.store[m := items[n]];
            assert b.store[m] == items[n];
          } else {
            assert o == Skipped;
            var m :| 0 <= m < |b0.store| && key(b0.store[m]) == key(items[n]);
            assert b.store[m] == b0.store[m];
          }
        }
      }
    }
  }

  /** With every key already stored, a run creates nothing. */
  lemma {:induction false} NothingCreatedWhenAllStored<T>(
    items: seq<T>, store: seq<T>, key: T -> Option<string>, validate: T -> seq<string>,
    policy: Policy, failing: set<nat>)
    requires forall i :: 0 <= i < |items| && !(policy.validateData && |validate(items[i])| > 0)
               ==> key(items[i]) in Keys(store, key)
    ensures ImportAll(items, store, key, validate, policy, failing).results.created == 0
    ensures forall i :: 0 <= i < |items| ==> ImportAll(items, store, key, validate, policy, failing).outcomes[i] != Created
  {
    if |items| > 0 {
      var n := |items| - 1;
      var init := items[..n];
      assert forall i :: 0 <= i < n ==> init[i] == items[i];
      NothingCreatedWhenAllStored(init, store, key, validate, policy, failing);
      ImportStoresKeys(init, store, key, validate, policy, failing);
      var b0 := ImportAll(init, store, key, validate, policy, failing);
      var b := ImportAll(items, store, key, validate, policy, failing);
      assert b == ImportOne(b0, items[n], n, key, validate, policy, failing);
      if !(policy.validateData && |validate(items[n])| > 0) {
        InKeysHasKey(b0.store, key, key(items[n]));
      }
      assert b.outcomes[n] != Created;
      forall i | 0 <= i < |items|
        ensures b.outcomes[i] != Created
      {
        if i < n {
          assert b.outcomes[i] == b0.outcomes[i];
        }
      }
    }
  }

  lemma InKeysHasKey<T>(store: seq<T>, key: T -> Option<string>, k: Option<string>)
    requires k in Keys(store, key)
    ensures HasKey(store, key, k)
  {
  }

  /** Idempotent import: running the same payload again after a run without
      write failures creates nothing, whatever the second run's policy. */
  lemma ReimportCreatesNothing<T>(
    items: seq<T>, store: seq<T>, key: T -> Option<string>, validate: T -> seq<string>,
    validateData: bool, overwrite1: bool, overwrite2: bool, failing2: set<nat>)
    ensures
      var first := ImportAll(items, store, key, validate, Policy(overwrite1, validateData), {});
      ImportAll(items, first.store, key, validate, Policy(overwrite2, validateData), failing2).results.created == 0
  {
    ImportStoresKeys(items, store, key, validate, Policy(overwrite1, validateData), {});
    var first := ImportAll(items, store, key, validate, Policy(overwrite1, validateData), {});
    NothingCreatedWhenAllStored(items, first.store, key, validate, Policy(overwrite2, validateData), failing2);
  }

  function TagName(t: TagData): Option<string> { t.name }
  function AreaName(a: AreaData): Option<string> { a.area }

  /** `bulkImportTags`: tags are matched on `name`. */
  function BulkImportTags(items: seq<TagData>, store: seq<TagData>, policy: Policy, failing: set<nat>): (b: Batch<TagData>)
    ensures |b.outcomes| == |items|
    ensures forall i :: 0 <= i < |items| ==>
              (b.outcomes[i] == Rejected <==> policy.validateData && (!Truthy(items[i].name) || Utf16Length(items[i].name.value) > MaxTagNameLength))
  {
    RejectedExactlyWhenInvalid(items, store, TagName, ValidateTagData, policy, failing);
    ImportAll(items, store, TagName, ValidateTagData, policy, failing)
  }

  /** `bulkImportAreas`: areas are matched on their `area` name. */
  function BulkImportAreas(items: seq<AreaData>, store: seq<AreaData>, policy: Policy, failing: set<nat>): (b: Batch<AreaData>)
    ensures |b.outcomes| == |items|
    ensures forall i :: 0 <= i < |items| ==>
              (b.outcomes[i] == Rejected <==> policy.validateData && (!Truthy(items[i].area) || Utf16Length(items[i].area.value) > MaxAreaNameLength))
  {
    RejectedExactlyWhenInvalid(items, store, AreaName, ValidateAreaData, policy, failing);
    ImportAll(items, store, AreaName, ValidateAreaData, policy, failing)
  }

  /** Importing the tag "bamboo" twice with the default policy: created once,
      then skipped with no error. */
  lemma BambooImportedOnce()
    ensures
      var bamboo := [TagData(Some("bamboo"), None, None)];
      var first := BulkImportTags(bamboo, [], DefaultPolicy, {});
      var second := BulkImportTags(bamboo, first.store, DefaultPolicy, {});
      && first.results == ImportResults(1, 0, [])
      && second.results == ImportResults(0, 0, [])
      && second.outcomes == [Skipped]
      && second.store == bamboo
  {
    var bamboo := [TagData(Some("bamboo"), None, None)];
    assert bamboo[..0] == [];
    var first := BulkImportTags(bamboo, [], DefaultPolicy, {});
    assert first.store == bamboo;
    assert HasKey(first.store, TagName, TagName(bamboo[0]));
  }

  /** The JSON payload: which lists are present. `bulkImportSubcategories` and
      `bulkImportVideos` do not exist, so only their presence matters. */
  datatype Payload = Payload(
    tags: Option<seq<TagData>>, areas: Option<seq<AreaData>>, hasSubcategories: bool, hasVideos: bool)

  datatype Report = Report(tags: ImportResults<TagData>, areas: ImportResults<AreaData>)

  /** The stores after the call and the report it returns; no report when the
      call throws. */
  datatype JsonImport = JsonImport(tagStore: seq<TagData>, areaStore: seq<AreaData>, report: Option<Report>)

  /** `importFromJSON`: tags first, then areas; a payload with subcategories or
      videos reaches a method that does not exist and throws, after the tag and
      area writes have been made. */
  function ImportFromJson(
    payload: Payload, tagStore: seq<TagData>, areaStore: seq<AreaData>, policy: Policy,
    tagFailing: set<nat>, areaFailing: set<nat>
  ): (r: JsonImport)
    ensures r.report.None? <==> payload.hasSubcategories || payload.hasVideos
    ensures payload.tags.None? ==> r.tagStore == tagStore
    ensures payload.areas.None? ==> r.areaStore == areaStore
    ensures payload.tags.Some? ==> r.tagStore == BulkImportTags(payload.tags.value, tagStore, policy, tagFailing).store
    ensures payload.areas.Some? ==> r.areaStore == BulkImportAreas(payload.areas.value, areaStore, policy, areaFailing).store
    ensures r.report.Some? ==>
              r.report.value.tags == (if payload.tags.Some? then BulkImportTags(payload.tags.value, tagStore, policy, tagFailing).results
                                        else ImportResults(0, 0, []))
    ensures r.report.Some? ==>
              r.report.value.areas == (if payload.areas.Some? then BulkImportAreas(payload.areas.value, areaStore, policy, areaFailing).results
                                        else ImportResults(0, 0, []))
    ensures r.report.Some? ==>
              && r.report.value.tags.created + r.report.value.tags.updated + |r.report.value.tags.errors|
                   <= |payload.tags.GetOr([])|
              && r.report.value.areas.created + r.report.value.areas.updated + |r.report.value.areas.errors|
                   <= |payload.areas.GetOr([])|
  {
    var tagsRun := if payload.tags.Some? then BulkImportTags(payload.tags.value, tagStore, policy, tagFailing)
                   else Batch(tagStore, ImportResults(0, 0, []), []);
    var areasRun := if payload.areas.Some? then BulkImportAreas(payload.areas.value, areaStore, policy, areaFailing)
                    else Batch(areaStore, ImportResults(0, 0, []), []);
    ImportCountersBounded(payload.tags.GetOr([]), tagStore, TagName, ValidateTagData, policy, tagFailing);
    ImportCountersBounded(payload.areas.GetOr([]), areaStore, AreaName, ValidateAreaData, policy, areaFailing);
    var report := if payload.hasSubcategories || payload.hasVideos then None
                  else Some(Report(tagsRun.results, areasRun.results));
    JsonImport(tagsRun.store, areasRun.store, report)
  }

  /** Importing the same JSON again, after a run without write failures,
      reports no tag and no area created, whatever the overwrite option. */
  lemma JsonReimportCreatesNothing(
    payload: Payload, tagStore: seq<TagData>, areaStore: seq<AreaData>, policy: Policy, overwrite: bool,
    tagFailing: set<nat>, areaFailing: set<nat>)
    requires !payload.hasSubcategories && !payload.hasVideos
    ensures var first := ImportFromJson(payload, tagStore, areaStore, policy, {}, {});
      var second := ImportFromJson(payload, first.tagStore, first.areaStore,
                                   Policy(overwrite, policy.validateData), tagFailing, areaFailing);
      && second.report.Some?
      && second.report.value.tags.created == 0
      && second.report.value.areas.created == 0
  {
    if payload.tags.Some? {
      ReimportCreatesNothing(payload.tags.value, tagStore, TagName, ValidateTagData,
                             policy.validateData, policy.overwriteExisting, overwrite, tagFailing);
    }
    if payload.areas.Some? {
      ReimportCreatesNothing(payload.areas.value, areaStore, AreaName, ValidateAreaData,
                             policy.validateData, policy.overwriteExisting, overwrite, areaFailing);
    }
  }
}

=== FILE: cloud_import.dfy ===
/** The `importApprovideoContent` cloud function: walks a nested areas → subcategories
    → videos payload and creates each object whose natural key (area name,
    subcategory `uniqueId`, video `youtubeId`) is not stored yet, linking
    every child to its parent. A step that throws is recorded as an error and
    the loop moves on to the next sibling. Which steps throw is a parameter:
    the query or save of every item whose key is in the failure sets. */
module CloudImport {
  import opened Wrappers
  import opened Strings

  datatype VideoItem = VideoItem(title: Option<string>, youtubeId: Option<string>)
  datatype SubcategoryItem = SubcategoryItem(uniqueId: Option<string>, title: Option<string>, videos: Option<seq<VideoItem>>)
  datatype AreaItem = AreaItem(area: Option<string>, subcategories: Option<seq<SubcategoryItem>>)

  /** The stored objects by natural key. A subcategory maps to the name of its
      parent area and a video to the key of its parent subcategory. */
  datatype Store = Store(
    areas: set<Option<string>>,
    subcategories: map<Option<string>, Option<string>>,
    videos: map<Option<string>, Option<string>>)

  /** The keys whose query or save throws. */
  datatype Failures = Failures(areas: set<Option<string>>, subcategories: set<Option<string>>, videos: set<Option<string>>)

  const NoFailures := Failures({}, {}, {})

  /** One entry of `results.errors`, by the title the message quotes. */
  datatype ImportError = AreaFailed(area: Option<string>) | SubcategoryFailed(title: Option<string>) | VideoFailed(title: Option<string>)

  datatype Results = Results(areasCreated: nat, subcategoriesCreated: nat, videosCreated: nat, errors: seq<ImportError>)

  const NoResults := Results(0, 0, 0, [])

  datatype State = State(store: Store, results: Results)

  /** `r` comes from `st` by creating objects only: nothing stored changes or
      disappears, each counter grew by the number of keys added at its level,
      and errors were only appended. */
  predicate Extends(st: State, r: State) {
    && st.store.areas <= r.store.areas
    && (forall k :: k in st.store.subcategories ==> k in r.store.subcategories && r.store.subcategories[k] == st.store.subcategories[k])
    && (forall k :: k in st.store.videos ==> k in r.store.videos && r.store.videos[k] == st.store.videos[k])
    && r.results.areasCreated - st.results.areasCreated == |r.store.areas| - |st.store.areas|
    && r.results.subcategoriesCreated - st.results.subcategoriesCreated == |r.store.subcategories| - |st.store.subcategories|
    && r.results.videosCreated - st.results.videosCreated == |r.store.videos| - |st.store.videos|
    && |st.results.errors| <= |r.results.errors|
    && r.results.errors[..|st.results.errors|] == st.results.errors
  }

  lemma ExtendsTransitive(a: State, b: State, c: State)
    requires Extends(a, b) && Extends(b, c)
    ensures Extends(a, c)
  {
    assert c.results.errors[..|a.results.errors|] == c.results.errors[..|b.results.errors|][..|a.results.errors|];
  }

  /** Every subcategory points at a stored area and every video at a stored
      subcategory. */
  predicate WellLinked(s: Store) {
    && (forall k :: k in s.subcategories ==> s.subcategories[k] in s.areas)
    && (forall k :: k in s.videos ==> s.videos[k] in s.subcategories)
  }

  function Fail(st: State, e: ImportError): State {
    st.(results := st.results.(errors := st.results.errors + [e]))
  }

  // ---- Videos -------------------------------------------------------------

  /** One iteration of the video loop under subcategory `parent`. */
  function ImportVideo(st: State, v: VideoItem, parent: Option<string>, fails: Failures): (r: State)
    ensures Extends(st, r)
    ensures r.store.areas == st.store.areas && r.store.subcategories == st.store.subcategories
    ensures r.results.areasCreated == st.results.areasCreated
    ensures r.results.subcategoriesCreated == st.results.subcategoriesCreated
    ensures v.youtubeId in fails.videos ==> r == Fail(st, VideoFailed(v.title))
    ensures v.youtubeId !in fails.videos ==> v.youtubeId in r.store.videos && r.results.errors == st.results.errors
    ensures r.results.videosCreated == st.results.videosCreated
      + (if v.youtubeId in fails.videos || v.youtubeId in st.store.videos then 0 else 1)
    ensures r.store.videos.Keys <= st.store.videos.Keys + {v.youtubeId}
    ensures v.youtubeId in r.store.videos && v.youtubeId !in st.store.videos ==> r.store.videos[v.youtubeId] == parent
  {
    if v.youtubeId in fails.videos then Fail(st, VideoFailed(v.title))
    else if v.youtubeId in st.store.videos then st
    else
      State(st.store.(videos := st.store.videos[v.youtubeId := parent]),
            st.results.(videosCreated := st.results.videosCreated + 1))
  }

  /** How many of `vs` have a failing key. */
  function VideoErrors(vs: seq<VideoItem>, fails: Failures): nat {
    if |vs| == 0 then 0
    else VideoErrors(vs[..|vs| - 1], fails) + (if vs[|vs| - 1].youtubeId in fails.videos then 1 else 0)
  }

  predicate VideosStored(vs: seq<VideoItem>, s: Store) {
    forall i :: 0 <= i < |vs| ==> vs[i].youtubeId in s.videos
  }

  /** The video loop of one subcategory, in order. */
  function ImportVideos(st: State, vs: seq<VideoItem>, parent: Option<string>, fails: Failures): (r: State)
    ensures Extends(st, r)
    ensures r.store.areas == st.store.areas && r.store.subcategories == st.store.subcategories
    ensures r.results.areasCreated == st.results.areasCreated
    ensures r.results.subcategoriesCreated == st.results.subcategoriesCreated
    ensures r.results.videosCreated <= st.results.videosCreated + |vs|
    ensures |r.results.errors| == |st.results.errors| + VideoErrors(vs, fails)
    ensures forall k :: k in r.store.videos && k !in st.store.videos ==> r.store.videos[k] == parent
    decreases |vs|
  {
    if |vs| == 0 then st
    else
      var mid := ImportVideos(st, vs[..|vs| - 1], parent, fails);
      var r := ImportVideo(mid, vs[|vs| - 1], parent, fails);
      ExtendsTransitive(st, mid, r);
      r
  }

  /** After the loop every video whose key does not fail is stored. */
  lemma {:induction false} VideosGetStored(st: State, vs: seq<VideoItem>, parent: Option<string>, fails: Failures)
    ensures var r := ImportVideos(st, vs, parent, fails);
      forall i :: 0 <= i < |vs| && vs[i].youtubeId !in fails.videos ==> vs[i].youtubeId in r.store.videos
    decreases |vs|
  {
    if |vs| > 0 {
      var init := vs[..|vs| - 1];
      VideosGetStored(st, init, parent, fails);
      var mid := ImportVideos(st, init, parent, fails);
      VideoKeysStep(vs, init, mid, ImportVideo(mid, vs[|vs| - 1], parent, fails), fails);
    }
  }

  lemma VideoKeysStep(vs: seq<VideoItem>, init: seq<VideoItem>, mid: State, r: State, fails: Failures)
    requires |vs| > 0 && init == vs[..|vs| - 1] && Extends(mid, r)
    requires forall i :: 0 <= i < |init| && init[i].youtubeId !in fails.videos ==> init[i].youtubeId in mid.store.videos
    requires vs[|vs| - 1].youtubeId !in fails.videos ==> vs[|vs| - 1].youtubeId in r.store.videos
    ensures forall i :: 0 <= i < |vs| && vs[i].youtubeId !in fails.videos ==> vs[i].youtubeId in r.store.videos
  {
    forall i | 0 <= i < |vs| - 1 && vs[i].youtubeId !in fails.videos
      ensures vs[i].youtubeId in r.store.videos
    {
      assert init[i] == vs[i];
    }
  }

  /** Without failures, videos that are all stored change nothing. */
  lemma {:induction false} StoredVideosAreNoop(st: State, vs: seq<VideoItem>, parent: Option<string>)
    requires VideosStored(vs, st.store)
    ensures ImportVideos(st, vs, parent, NoFailures) == st
    decreases |vs|
  {
    if |vs| > 0 {
      var init := vs[..|vs| - 1];
      assert forall i :: 0 <= i < |init| ==> init[i] == vs[i];
      StoredVideosAreNoop(st, init, parent);
    }
  }

  // ---- Subcategories ------------------------------------------------------

  /** The subcategory query and save: a new key is stored under `parent` and
      counted. */
  function CreateSubcategory(st: State, key: Option<string>, parent: Option<string>): State {
    if key in st.store.subcategories then st
    else State(st.store.(subcategories := st.store.subcategories[key := parent]),
               st.results.(subcategoriesCreated := st.results.subcategoriesCreated + 1))
  }

  /** One iteration of the subcategory loop under area `parent`: create the
      subcategory when its key is new, then run its video loop. */
  function ImportSubcategory(st: State, s: SubcategoryItem, parent: Option<string>, fails: Failures): (r: State)
    ensures Extends(st, r)
    ensures r.store.areas == st.store.areas
    ensures r.results.areasCreated == st.results.areasCreated
    ensures s.uniqueId in fails.subcategories ==> r == Fail(st, SubcategoryFailed(s.title))
    ensures s.uniqueId !in fails.subcategories ==> s.uniqueId in r.store.subcategories
    ensures r.results.subcategoriesCreated == st.results.subcategoriesCreated
      + (if s.uniqueId in fails.subcategories || s.uniqueId in st.store.subcategories then 0 else 1)
    ensures r.results.videosCreated <= st.results.videosCreated + |s.videos.GetOr([])|
    ensures |r.results.errors| == |st.results.errors|
      + (if s.uniqueId in fails.subcategories then 1 else VideoErrors(s.videos.GetOr([]), fails))
    ensures r.store.subcategories.Keys <= st.store.subcategories.Keys + {s.uniqueId}
    ensures forall k :: k in r.store.subcategories && k !in st.store.subcategories ==> r.store.subcategories[k] == parent
    ensures forall k :: k in r.store.videos && k !in st.store.videos ==> r.store.videos[k] == s.uniqueId
  {
    if s.uniqueId in fails.subcategories then Fail(st, SubcategoryFailed(s.title))
    else
      var created := CreateSubcategory(st, s.uniqueId, parent);
      var r := ImportVideos(created, s.videos.GetOr([]), s.uniqueId, fails);
      ExtendsTransitive(st, created, r);
      r
  }

  /** How many error entries a subcategory list produces: one for a failing
      subcategory, whose videos are never visited, otherwise one per failing
      video. */
  function SubcategoryErrors(ss: seq<SubcategoryItem>, fails: Failures): nat {
    if |ss| == 0 then 0
    else
      var s := ss[|ss| - 1];
      SubcategoryErrors(ss[..|ss| - 1], fails)
        + (if s.uniqueId in fails.subcategories then 1 else VideoErrors(s.videos.GetOr([]), fails))
  }

  /** How many videos a subcategory list carries. */
  function VideoCount(ss: seq<SubcategoryItem>): nat {
    if |ss| == 0 then 0 else VideoCount(ss[..|ss| - 1]) + |ss[|ss| - 1].videos.GetOr([])|
  }

  predicate SubcategoriesStored(ss: seq<SubcategoryItem>, s: Store) {
    forall i :: 0 <= i < |ss| ==> ss[i].uniqueId in s.subcategories && VideosStored(ss[i].videos.GetOr([]), s)
  }

  lemma VideosStoredGrows(vs: seq<VideoItem>, a: State, b: State)
    requires VideosStored(vs, a.store) && Extends(a, b)
    ensures VideosStored(vs, b.store)
  {
  }

  /** Growing the store past the first `|ss| - 1` subcategories keeps them
      stored; with the last one stored too, all are. */
  lemma KeysStoredStep(ss: seq<SubcategoryItem>, init: seq<SubcategoryItem>, mid: State, r: State, fails: Failures)
    requires |ss| > 0 && init == ss[..|ss| - 1] && Extends(mid, r)
    requires forall i :: 0 <= i < |init| && init[i].uniqueId !in fails.subcategories ==> init[i].uniqueId in mid.store.subcategories
    requires ss[|ss| - 1].uniqueId !in fails.subcategories ==> ss[|ss| - 1].uniqueId in r.store.subcategories
    ensures forall i :: 0 <= i < |ss| && ss[i].uniqueId !in fails.subcategories ==> ss[i].uniqueId in r.store.subcategories
  {
    forall i | 0 <= i < |ss| - 1 && ss[i].uniqueId !in fails.subcategories
      ensures ss[i].uniqueId in r.store.subcategories
    {
      assert init[i] == ss[i];
    }
  }

  lemma SubcategoriesStoredStep(ss: seq<SubcategoryItem>, mid: State, r: State)
    requires |ss| > 0 && Extends(mid, r)
    requires SubcategoriesStored(ss[..|ss| - 1], mid.store)
    requires ss[|ss| - 1].uniqueId in r.store.subcategories && VideosStored(ss[|ss| - 1].videos.GetOr([]), r.store)
    ensures SubcategoriesStored(ss, r.store)
  {
    forall i | 0 <= i < |ss| - 1
      ensures ss[i].uniqueId in r.store.subcategories && VideosStored(ss[i].videos.GetOr([]), r.store)
    {
      assert ss[..|ss| - 1][i] == ss[i];
      VideosStoredGrows(ss[i].videos.GetOr([]), mid, r);
    }
  }

  /** A subcategory whose key and videos are all stored changes nothing. */
  lemma StoredSubcategoryIsNoop(st: State, s: SubcategoryItem, parent: Option<string>)
    requires s.uniqueId in st.store.subcategories && VideosStored(s.videos.GetOr([]), st.store)
    ensures ImportSubcategory(st, s, parent, NoFailures) == st
  {
    StoredVideosAreNoop(st, s.videos.GetOr([]), s.uniqueId);
  }

  /** With no failures a subcategory's key and all its videos end up stored. */
  lemma SubcategoryGetsStored(st: State, s: SubcategoryItem, parent: Option<string>)
    ensures var r := ImportSubcategory(st, s, parent, NoFailures);
      s.uniqueId in r.store.subcategories && VideosStored(s.videos.GetOr([]), r.store)
  {
    VideosGetStored(CreateSubcategory(st, s.uniqueId, parent), s.videos.GetOr([]), s.uniqueId, NoFailures);
  }

  /** The subcategory loop of one area, in order. */
  function ImportSubcategories(st: State, ss: seq<SubcategoryItem>, parent: Option<string>, fails: Failures): (r: State)
    ensures Extends(st, r)
    ensures r.store.areas == st.store.areas
    ensures r.results.areasCreated == st.results.areasCreated
    decreases |ss|
  {
    if |ss| == 0 then st
    else
      var mid := ImportSubcategories(st, ss[..|ss| - 1], parent, fails);
      var r := ImportSubcategory(mid, ss[|ss| - 1], parent, fails);
      ExtendsTransitive(st, mid, r);
      r
  }

  /** Each subcategory is counted at most once, each video at most once, and
      one error is recorded per failing subcategory or per failing video of a
      subcategory that did not fail. */
  lemma {:induction false} SubcategoriesCounts(st: State, ss: seq<SubcategoryItem>, parent: Option<string>, fails: Failures)
    ensures var r := ImportSubcategories(st, ss, parent, fails);
      && r.results.subcategoriesCreated <= st.results.subcategoriesCreated + |ss|
      && r.results.videosCreated <= st.results.videosCreated + VideoCount(ss)
      && |r.results.errors| == |st.results.errors| + SubcategoryErrors(ss, fails)
    decreases |ss|
  {
    if |ss| > 0 {
      SubcategoriesCounts(st, ss[..|ss| - 1], parent, fails);
    }
  }

  /** After the loop every subcategory that did not fail is stored, the new
      ones under `parent`, and every new video points at a stored
      subcategory. */
  lemma {:induction false} SubcategoriesLinks(st: State, ss: seq<SubcategoryItem>, parent: Option<string>, fails: Failures)
    ensures var r := ImportSubcategories(st, ss, parent, fails);
      && (forall i :: 0 <= i < |ss| && ss[i].uniqueId !in fails.subcategories ==> ss[i].uniqueId in r.store.subcategories)
      && (forall k :: k in r.store.subcategories && k !in st.store.subcategories ==> r.store.subcategories[k] == parent)
      && (forall k :: k in r.store.videos && k !in st.store.videos ==> r.store.videos[k] in r.store.subcategories)
    decreases |ss|
  {
    if |ss| > 0 {
      var init := ss[..|ss| - 1];
      var s := ss[|ss| - 1];
      SubcategoriesLinks(st, init, parent, fails);
      var mid := ImportSubcategories(st, init, parent, fails);
      var r := ImportSubcategory(mid, s, parent, fails);
      assert r == ImportSubcategories(st, ss, parent, fails);
      SubcategoryStepLinks(st, mid, s, parent, fails);
      KeysStoredStep(ss, init, mid, r, fails);
    }
  }

  /** Stepping one subcategory past `mid` keeps every video pointing at a
      stored subcategory, given that `mid` did. */
  lemma SubcategoryStepLinks(st: State, mid: State, s: SubcategoryItem, parent: Option<string>, fails: Failures)
    requires Extends(st, mid)
    requires forall k :: k in mid.store.videos && k !in st.store.videos ==> mid.store.videos[k] in mid.store.subcategories
    ensures var r := ImportSubcategory(mid, s, parent, fails);
      forall k :: k in r.store.videos && k !in st.store.videos ==> r.store.videos[k] in r.store.subcategories
  {
    var r := ImportSubcategory(mid, s, parent, fails);
    forall k | k in r.store.videos && k !in st.store.videos
      ensures r.store.videos[k] in r.store.subcategories
    {
      if k in mid.store.videos {
        assert r.store.videos[k] == mid.store.videos[k];
      } else {
        assert s.uniqueId !in fails.subcategories;
      }
    }
  }

  /** Without failures the loop leaves every subcategory and video of the
      list stored. */
  lemma {:induction false} SubcategoriesGetStored(st: State, ss: seq<SubcategoryItem>, parent: Option<string>)
    ensures SubcategoriesStored(ss, ImportSubcategories(st, ss, parent, NoFailures).store)
    decreases |ss|
  {
    if |ss| > 0 {
      var init := ss[..|ss| - 1];
      var s := ss[|ss| - 1];
      SubcategoriesGetStored(st, init, parent);
      var mid := ImportSubcategories(st, init, parent, NoFailures);
      var r := ImportSubcategory(mid, s, parent, NoFailures);
      assert r == ImportSubcategories(st, ss, parent, NoFailures);
      SubcategoryGetsStored(mid, s, parent);
      SubcategoriesStoredStep(ss, mid, r);
    }
  }

  /** Without failures, a list whose subcategories and videos are all stored
      changes nothing. */
  lemma {:induction false} StoredSubcategoriesAreNoop(st: State, ss: seq<SubcategoryItem>, parent: Option<string>)
    requires SubcategoriesStored(ss, st.store)
    ensures ImportSubcategories(st, ss, parent, NoFailures) == st
    decreases |ss|
  {
    if |ss| > 0 {
      var init := ss[..|ss| - 1];
      assert forall i :: 0 <= i < |init| ==> init[i] == ss[i];
      StoredSubcategoriesAreNoop(st, init, parent);
      StoredSubcategoryIsNoop(st, ss[|ss| - 1], parent);
    }
  }

  // ---- Areas --------------------------------------------------------------

  /** The area query and save: a new name is stored and counted. */
  function CreateArea(st: State, name: Option<string>): State {
    if name in st.store.areas then st
    else State(st.store.(areas := st.store.areas + {name}),
               st.results.(areasCreated := st.results.areasCreated + 1))
  }

  /** One iteration of the area loop: create the area when its name is new,
      then run its subcategory loop. */
  function ImportArea(st: State, a: AreaItem, fails: Failures): (r: State)
    ensures Extends(st, r)
    ensures a.area in fails.areas ==> r == Fail(st, AreaFailed(a.area))
    ensures a.area !in fails.areas ==> a.area in r.store.areas
    ensures r.results.areasCreated == st.results.areasCreated
      + (if a.area in fails.areas || a.area in st.store.areas then 0 else 1)
    ensures r.store.areas <= st.store.areas + {a.area}
  {
    if a.area in fails.areas then Fail(st, AreaFailed(a.area))
    else
      var created := CreateArea(st, a.area);
      var r := ImportSubcategories(created, a.subcategories.GetOr([]), a.area, fails);
      ExtendsTransitive(st, created, r);
      r
  }

  /** An area makes one error entry when it fails and otherwise those of its
      subcategories, and creates at most one subcategory per item and one
      video per item. */
  lemma AreaCounts(st: State, a: AreaItem, fails: Failures)
    ensures var r := ImportArea(st, a, fails);
      && r.results.subcategoriesCreated <= st.results.subcategoriesCreated + |a.subcategories.GetOr([])|
      && r.results.videosCreated <= st.results.videosCreated + VideoCount(a.subcategories.GetOr([]))
      && |r.results.errors| == |st.results.errors|
        + (if a.area in fails.areas then 1 else SubcategoryErrors(a.subcategories.GetOr([]), fails))
  {
    if a.area !in fails.areas {
      var created := CreateArea(st, a.area);
      assert ImportArea(st, a, fails) == ImportSubcategories(created, a.subcategories.GetOr([]), a.area, fails);
      SubcategoriesCounts(created, a.subcategories.GetOr([]), a.area, fails);
    }
  }

  /** Importing an area into a well-linked store leaves it well linked. */
  lemma AreaKeepsLinks(st: State, a: AreaItem, fails: Failures)
    requires WellLinked(st.store)
    ensures WellLinked(ImportArea(st, a, fails).store)
  {
    if a.area !in fails.areas {
      var created := CreateArea(st, a.area);
      var subs := a.subcategories.GetOr([]);
      var r := ImportSubcategories(created, subs, a.area, fails);
      assert r == ImportArea(st, a, fails);
      SubcategoriesLinks(created, subs, a.area, fails);
      forall k | k in r.store.subcategories
        ensures r.store.subcategories[k] in r.store.areas
      {
        if k in created.store.subcategories {
          assert created.store.subcategories[k] in created.store.areas;
        }
      }
      forall k | k in r.store.videos
        ensures r.store.videos[k] in r.store.subcategories
      {
        if k in created.store.videos {
          assert created.store.videos[k] in created.store.subcategories;
        }
      }
    }
  }

  predicate AreasStored(as_: seq<AreaItem>, s: Store) {
    forall i :: 0 <= i < |as_| ==> as_[i].area in s.areas && SubcategoriesStored(as_[i].subcategories.GetOr([]), s)
  }

  lemma SubcategoriesStoredGrows(ss: seq<SubcategoryItem>, a: State, b: State)
    requires SubcategoriesStored(ss, a.store) && Extends(a, b)
    ensures SubcategoriesStored(ss, b.store)
  {
    forall i | 0 <= i < |ss|
      ensures ss[i].uniqueId in b.store.subcategories && VideosStored(ss[i].videos.GetOr([]), b.store)
    {
      VideosStoredGrows(ss[i].videos.GetOr([]), a, b);
    }
  }

  /** Without failures an area, its subcategories and their videos end up
      stored; an area already stored down to its videos changes nothing. */
  lemma AreaGetsStored(st: State, a: AreaItem)
    ensures var r := ImportArea(st, a, NoFailures);
      a.area in r.store.areas && SubcategoriesStored(a.subcategories.GetOr([]), r.store)
    ensures a.area in st.store.areas && SubcategoriesStored(a.subcategories.GetOr([]), st.store)
      ==> ImportArea(st, a, NoFailures) == st
  {
    var created := CreateArea(st, a.area);
    assert ImportArea(st, a, NoFailures) == ImportSubcategories(created, a.subcategories.GetOr([]), a.area, NoFailures);
    SubcategoriesGetStored(created, a.subcategories.GetOr([]), a.area);
    if a.area in st.store.areas && SubcategoriesStored(a.subcategories.GetOr([]), st.store) {
      StoredSubcategoriesAreNoop(st, a.subcategories.GetOr([]), a.area);
    }
  }

  /** The area loop over the whole payload, in order. */
  function ImportAreas(st: State, as_: seq<AreaItem>, fails: Failures): (r: State)
    ensures Extends(st, r)
    decreases |as_|
  {
    if |as_| == 0 then st
    else
      var mid := ImportAreas(st, as_[..|as_| - 1], fails);
      var r := ImportArea(mid, as_[|as_| - 1], fails);
      ExtendsTransitive(st, mid, r);
      r
  }

  function SubcategoryTotal(as_: seq<AreaItem>): nat {
    if |as_| == 0 then 0 else SubcategoryTotal(as_[..|as_| - 1]) + |as_[|as_| - 1].subcategories.GetOr([])|
  }

  function VideoTotal(as_: seq<AreaItem>): nat {
    if |as_| == 0 then 0 else VideoTotal(as_[..|as_| - 1]) + VideoCount(as_[|as_| - 1].subcategories.GetOr([]))
  }

  /** How many error entries the payload produces: one per failing area, whose
      subtree is never visited, otherwise those of its subcategories. */
  function AreaErrors(as_: seq<AreaItem>, fails: Failures): nat {
    if |as_| == 0 then 0
    else
      var a := as_[|as_| - 1];
      AreaErrors(as_[..|as_| - 1], fails)
        + (if a.area in fails.areas then 1 else SubcategoryErrors(a.subcategories.GetOr([]), fails))
  }

  lemma {:induction false} AreasCounts(st: State, as_: seq<AreaItem>, fails: Failures)
    ensures var r := ImportAreas(st, as_, fails);
      && r.results.areasCreated <= st.results.areasCreated + |as_|
      && r.results.subcategoriesCreated <= st.results.subcategoriesCreated + SubcategoryTotal(as_)
      && r.results.videosCreated <= st.results.videosCreated + VideoTotal(as_)
      && |r.results.errors| == |st.results.errors| + AreaErrors(as_, fails)
    decreases |as_|
  {
    if |as_| > 0 {
      AreasCounts(st, as_[..|as_| - 1], fails);
      AreaCounts(ImportAreas(st, as_[..|as_| - 1], fails), as_[|as_| - 1], fails);
    }
  }

  lemma {:induction false} AreasKeepLinks(st: State, as_: seq<AreaItem>, fails: Failures)
    requires WellLinked(st.store)
    ensures WellLinked(ImportAreas(st, as_, fails).store)
    decreases |as_|
  {
    if |as_| > 0 {
      AreasKeepLinks(st, as_[..|as_| - 1], fails);
      AreaKeepsLinks(ImportAreas(st, as_[..|as_| - 1], fails), as_[|as_| - 1], fails);
    }
  }

  lemma AreasStoredStep(as_: seq<AreaItem>, init: seq<AreaItem>, mid: State, r: State)
    requires |as_| > 0 && init == as_[..|as_| - 1] && Extends(mid, r)
    requires AreasStored(init, mid.store)
    requires as_[|as_| - 1].area in r.store.areas && SubcategoriesStored(as_[|as_| - 1].subcategories.GetOr([]), r.store)
    ensures AreasStored(as_, r.store)
  {
    forall i | 0 <= i < |as_| - 1
      ensures as_[i].area in r.store.areas && SubcategoriesStored(as_[i].subcategories.GetOr([]), r.store)
    {
      assert init[i] == as_[i];
      SubcategoriesStoredGrows(as_[i].subcategories.GetOr([]), mid, r);
    }
  }

  lemma {:induction false} AreasGetStored(st: State, as_: seq<AreaItem>)
    ensures AreasStored(as_, ImportAreas(st, as_, NoFailures).store)
    decreases |as_|
  {
    if |as_| > 0 {
      var init := as_[..|as_| - 1];
      AreasGetStored(st, init);
      var mid := ImportAreas(st, init, NoFailures);
      AreaGetsStored(mid, as_[|as_| - 1]);
      AreasStoredStep(as_, init, mid, ImportArea(mid, as_[|as_| - 1], NoFailures));
    }
  }

  lemma {:induction false} StoredAreasAreNoop(st: State, as_: seq<AreaItem>)
    requires AreasStored(as_, st.store)
    ensures ImportAreas(st, as_, NoFailures) == st
    decreases |as_|
  {
    if |as_| > 0 {
      var init := as_[..|as_| - 1];
      assert forall i :: 0 <= i < |init| ==> init[i] == as_[i];
      StoredAreasAreNoop(st, init);
      AreaGetsStored(st, as_[|as_| - 1]);
    }
  }

  // ---- The cloud function -------------------------------------------------

  /** `importApprovideoContent`: run the area loop from zeroed counters. The store only
      grows, and each counter equals the number of keys added at its level. */
  function ImportContent(payload: seq<AreaItem>, store: Store, fails: Failures): (r: State)
    ensures store.areas <= r.store.areas
    ensures store.subcategories.Keys <= r.store.subcategories.Keys
    ensures store.videos.Keys <= r.store.videos.Keys
    ensures r.results.areasCreated == |r.store.areas| - |store.areas|
    ensures r.results.subcategoriesCreated == |r.store.subcategories| - |store.subcategories|
    ensures r.results.videosCreated == |r.store.videos| - |store.videos|
  {
    ImportAreas(State(store, NoResults), payload, fails)
  }

  /** The counter part both messages share. */
  function Counters(r: Results): string {
    "Areas: " + NatToString(r.areasCreated)
      + ", Subcategories: " + NatToString(r.subcategoriesCreated)
      + ", Videos: " + NatToString(r.videosCreated)
  }

  /** The message the cloud function returns. */
  function Summary(r: Results): (msg: string)
    ensures IsPrefix("Import successful! ", msg) <==> |r.errors| == 0
    ensures |r.errors| > 0 ==> IsPrefix("Import finished with " + NatToString(|r.errors|) + " errors. ", msg)
  {
    var counts := Counters(r);
    if |r.errors| > 0 then
      var head := "Import finished with " + NatToString(|r.errors|) + " errors. ";
      var msg := head + counts + ". Check server logs for error details.";
      assert msg[..|head|] == head;
      assert msg[7] != "Import successful! "[7];
      msg
    else
      var head := "Import successful! ";
      var msg := head + counts + ".";
      assert msg[..|head|] == head;
      msg
  }

  /** Counters are bounded by the payload and errors are exactly one per
      failing item that is reached. */
  lemma ImportCounts(payload: seq<AreaItem>, store: Store, fails: Failures)
    ensures var r := ImportContent(payload, store, fails).results;
      && r.areasCreated <= |payload|
      && r.subcategoriesCreated <= SubcategoryTotal(payload)
      && r.videosCreated <= VideoTotal(payload)
      && |r.errors| == AreaErrors(payload, fails)
  {
    AreasCounts(State(store, NoResults), payload, fails);
  }

  /** Every stored subcategory points at a stored area and every stored video
      at a stored subcategory, before and after an import. */
  lemma ImportKeepsLinks(payload: seq<AreaItem>, store: Store, fails: Failures)
    requires WellLinked(store)
    ensures WellLinked(ImportContent(payload, store, fails).store)
  {
    AreasKeepLinks(State(store, NoResults), payload, fails);
  }

  /** Running the import again after a run without errors creates nothing,
      records no error and reports success. */
  lemma RerunCreatesNothing(payload: seq<AreaItem>, store: Store)
    ensures var first := ImportContent(payload, store, NoFailures);
      var second := ImportContent(payload, first.store, NoFailures);
      && second.store == first.store
      && second.results == NoResults
      && IsPrefix("Import successful! ", Summary(second.results))
  {
    var first := ImportContent(payload, store, NoFailures);
    AreasGetStored(State(store, NoResults), payload);
    StoredAreasAreNoop(State(first.store, NoResults), payload);
  }
}

=== FILE: content.dfy ===
/** `buildContentStructure`: the Area → Subcategory → Video tree and the tag
    glossary built from the four flat lists the frontend fetches. */
module Content {
  import opened Wrappers
  import opened Strings
  import opened Seqs
  import opened Sorting
  import opened Entities

  datatype ContentStructure = ContentStructure(
    areas: seq<Area>,
    videos: seq<Video>,
    tags: seq<Tag>,
    tagGlossary: map<string, string>,
    lastUpdated: string)

  /** The `TypeError`s the build can throw: `tag.name.toLowerCase()` on a tag
      without a name, and `a.title.localeCompare(...)` on a subcategory without a
      title. */
  datatype StructureError = TagWithoutName | SubcategoryWithoutTitle

  /** `a.title.localeCompare(b.title) <= 0`. */
  predicate ByTitle(a: Subcategory, b: Subcategory) {
    LexLe(a.title.GetOr(""), b.title.GetOr(""))
  }

  /** `new Date(b.date) - new Date(a.date) <= 0`: newest first. */
  predicate ByDateDesc(a: Video, b: Video) {
    a.date >= b.date
  }

  lemma TitleOrderIsTotalPreorder()
    ensures TotalPreorder(ByTitle)
  {
    forall a: Subcategory, b: Subcategory
      ensures ByTitle(a, b) || ByTitle(b, a)
    {
      LexLeTotal(a.title.GetOr(""), b.title.GetOr(""));
    }
    forall a: Subcategory, b: Subcategory, c: Subcategory | ByTitle(a, b) && ByTitle(b, c)
      ensures ByTitle(a, c)
    {
      LexLeTransitive(a.title.GetOr(""), b.title.GetOr(""), c.title.GetOr(""));
    }
  }

  lemma DateOrderIsTotalPreorder()
    ensures TotalPreorder(ByDateDesc)
  {
  }

  // ---------------------------------------------------------------- glossary

  predicate AllNamed(tags: seq<Tag>) {
    forall i :: 0 <= i < |tags| ==> tags[i].name.Some?
  }

  function GlossaryKey(t: Tag): string
    requires t.name.Some?
  {
    Lower(t.name.value)
  }

  /** `tag.definition || `${tag.name} related content``. */
  function GlossaryValue(t: Tag): string
    requires t.name.Some?
  {
    OrDefault(t.definition, t.name.value + " related content")
  }

  /** No later tag in `tags` has the same lower-cased name as `tags[i]`. */
  predicate IsLastWithKey(tags: seq<Tag>, i: int)
    requires AllNamed(tags)
    requires 0 <= i < |tags|
  {
    forall j :: i < j < |tags| ==> GlossaryKey(tags[j]) != GlossaryKey(tags[i])
  }

  /** The `forEach` over the tags: one entry per lower-cased name, written by
      the last tag carrying that name; a tag named `__proto__` in any case
      writes nothing. */
  function BuildGlossary(tags: seq<Tag>): (g: map<string, string>)
    requires AllNamed(tags)
    ensures ProtoKey !in g
    ensures forall i :: 0 <= i < |tags| && GlossaryKey(tags[i]) != ProtoKey ==> GlossaryKey(tags[i]) in g
    ensures forall k :: k in g ==> exists i :: 0 <= i < |tags| && GlossaryKey(tags[i]) == k
    ensures forall i :: 0 <= i < |tags| && IsLastWithKey(tags, i) && GlossaryKey(tags[i]) != ProtoKey ==>
              g[GlossaryKey(tags[i])] == GlossaryValue(tags[i])
  {
    if |tags| == 0 then map[]
    else
      var init := tags[..|tags| - 1];
      var last := tags[|tags| - 1];
      var g0 := BuildGlossary(init);
      var g := if GlossaryKey(last) == ProtoKey then g0 else g0[GlossaryKey(last) := GlossaryValue(last)];
      GlossaryStep(tags, init, g0, g);
      g
  }

  /** Writing the last tag's entry over the glossary of the others. */
  lemma GlossaryStep(tags: seq<Tag>, init: seq<Tag>, g0: map<string, string>, g: map<string, string>)
    requires |tags| > 0 && AllNamed(tags) && init == tags[..|tags| - 1] && AllNamed(init)
    requires ProtoKey !in g0
    requires forall i :: 0 <= i < |init| && GlossaryKey(init[i]) != ProtoKey ==> GlossaryKey(init[i]) in g0
    requires forall k :: k in g0 ==> exists i :: 0 <= i < |init| && GlossaryKey(init[i]) == k
    requires forall i :: 0 <= i < |init| && IsLastWithKey(init, i) && GlossaryKey(init[i]) != ProtoKey ==>
               g0[GlossaryKey(init[i])] == GlossaryValue(init[i])
    requires g == if GlossaryKey(tags[|tags| - 1]) == ProtoKey then g0
                  else g0[GlossaryKey(tags[|tags| - 1]) := GlossaryValue(tags[|tags| - 1])]
    ensures ProtoKey !in g
    ensures forall i :: 0 <= i < |tags| && GlossaryKey(tags[i]) != ProtoKey ==> GlossaryKey(tags[i]) in g
    ensures forall k :: k in g ==> exists i :: 0 <= i < |tags| && GlossaryKey(tags[i]) == k
    ensures forall i :: 0 <= i < |tags| && IsLastWithKey(tags, i) && GlossaryKey(tags[i]) != ProtoKey ==>
              g[GlossaryKey(tags[i])] == GlossaryValue(tags[i])
  {
    forall i | 0 <= i < |tags| && GlossaryKey(tags[i]) != ProtoKey
      ensures GlossaryKey(tags[i]) in g
      ensures IsLastWithKey(tags, i) ==> g[GlossaryKey(tags[i])] == GlossaryValue(tags[i])
    {
      GlossaryStepAt(tags, init, g0, g, i);
    }
    forall k | k in g
      ensures exists i :: 0 <= i < |tags| && GlossaryKey(tags[i]) == k
    {
      GlossaryStepFrom(tags, init, g0, g, k);
    }
  }

  /** `GlossaryStep` for one key of the result. */
  lemma GlossaryStepFrom(tags: seq<Tag>, init: seq<Tag>, g0: map<string, string>, g: map<string, string>, k: string)
    requires |tags| > 0 && AllNamed(tags) && init == tags[..|tags| - 1] && AllNamed(init)
    requires forall k :: k in g0 ==> exists i :: 0 <= i < |init| && GlossaryKey(init[i]) == k
    requires g.Keys <= g0.Keys + {GlossaryKey(tags[|tags| - 1])}
    requires k in g
    ensures exists i :: 0 <= i < |tags| && GlossaryKey(tags[i]) == k
  {
    if k in g0 {
      var i :| 0 <= i < |init| && GlossaryKey(init[i]) == k;
      assert init[i] == tags[i];
    } else {
      assert GlossaryKey(tags[|tags| - 1]) == k;
    }
  }

  /** `GlossaryStep` for the entry of one tag. */
  lemma GlossaryStepAt(tags: seq<Tag>, init: seq<Tag>, g0: map<string, string>, g: map<string, string>, i: int)
    requires |tags| > 0 && AllNamed(tags) && init == tags[..|tags| - 1] && AllNamed(init)
    requires forall i :: 0 <= i < |init| && GlossaryKey(init[i]) != ProtoKey ==> GlossaryKey(init[i]) in g0
    requires forall i :: 0 <= i < |init| && IsLastWithKey(init, i) && GlossaryKey(init[i]) != ProtoKey ==>
               g0[GlossaryKey(init[i])] == GlossaryValue(init[i])
    requires g == if GlossaryKey(tags[|tags| - 1]) == ProtoKey then g0
                  else g0[GlossaryKey(tags[|tags| - 1]) := GlossaryValue(tags[|tags| - 1])]
    requires 0 <= i < |tags| && GlossaryKey(tags[i]) != ProtoKey
    ensures GlossaryKey(tags[i]) in g
    ensures IsLastWithKey(tags, i) ==> g[GlossaryKey(tags[i])] == GlossaryValue(tags[i])
  {
    var last := tags[|tags| - 1];
    if i < |init| {
      assert init[i] == tags[i];
      if IsLastWithKey(tags, i) {
        assert IsLastWithKey(init, i);
        assert GlossaryKey(tags[i]) != GlossaryKey(last);
      }
    }
  }

  // ---------------------------------------------------------------- the tree

  /** The videos filed under subcategory `id`: `video.categories.includes(id)`. */
  function Members(videos: seq<Video>, id: string): seq<Video> {
    Filter(videos, (v: Video) => id in v.categories)
  }

  /** A subcategory carrying its videos, newest first. */
  function WithVideos(s: Subcategory, videos: seq<Video>): (r: Subcategory)
    ensures r.(videos := s.videos) == s
    ensures SortedBy(r.videos, ByDateDesc)
    ensures multiset(r.videos) == multiset(Members(videos, s.id))
    ensures forall v :: v in r.videos <==> v in videos && s.id in v.categories
  {
    DateOrderIsTotalPreorder();
    var vs := InsertionSort(Members(videos, s.id), ByDateDesc);
    assert forall v :: v in vs <==> v in multiset(Members(videos, s.id));
    s.(videos := vs)
  }

  /** The subcategories whose `areaId` is the area's id, in input order. */
  function Matched(subs: seq<Subcategory>, area: Area): seq<Subcategory> {
    Filter(subs, (s: Subcategory) => s.areaId == Some(area.id))
  }

  /** The group can be sorted without dereferencing a missing title: a sort of
      fewer than two elements calls no comparator. */
  predicate Orderable(group: seq<Subcategory>) {
    |group| < 2 || forall i :: 0 <= i < |group| ==> group[i].title.Some?
  }

  /** One entry of `areas.map(...)`: the area with its matched subcategories,
      each carrying its videos, sorted by title. */
  function StructureArea(area: Area, subs: seq<Subcategory>, videos: seq<Video>): (a: Area)
    ensures a.(subcategories := area.subcategories) == area
    ensures SortedBy(a.subcategories, ByTitle)
    ensures multiset(a.subcategories) == multiset(Map(Matched(subs, area), (s: Subcategory) => WithVideos(s, videos)))
    ensures forall s :: s in a.subcategories ==> s.areaId == Some(area.id)
    ensures forall s :: s in a.subcategories <==>
              exists j :: 0 <= j < |subs| && subs[j].areaId == Some(area.id) && s == WithVideos(subs[j], videos)
  {
    TitleOrderIsTotalPreorder();
    var group := Map(Matched(subs, area), (s: Subcategory) => WithVideos(s, videos));
    var sorted := InsertionSort(group, ByTitle);
    assert forall s :: s in sorted <==> s in multiset(group);
    GroupMembers(area, subs, videos);
    area.(subcategories := sorted)
  }

  /** The matched group, each carrying its videos, holds exactly the
      subcategories whose `areaId` is the area's id. */
  lemma GroupMembers(area: Area, subs: seq<Subcategory>, videos: seq<Video>)
    ensures var group := Map(Matched(subs, area), (s: Subcategory) => WithVideos(s, videos));
      forall s :: s in group <==>
        exists j :: 0 <= j < |subs| && subs[j].areaId == Some(area.id) && s == WithVideos(subs[j], videos)
  {
    var group := Map(Matched(subs, area), (s: Subcategory) => WithVideos(s, videos));
    forall s | s in group
      ensures exists j :: 0 <= j < |subs| && subs[j].areaId == Some(area.id) && s == WithVideos(subs[j], videos)
    {
      var k :| 0 <= k < |group| && group[k] == s;
      var j :| 0 <= j < |subs| && subs[j] == Matched(subs, area)[k];
    }
    forall j | 0 <= j < |subs| && subs[j].areaId == Some(area.id)
      ensures WithVideos(subs[j], videos) in group
    {
      var k :| 0 <= k < |Matched(subs, area)| && Matched(subs, area)[k] == subs[j];
      assert group[k] == WithVideos(subs[j], videos);
    }
  }

  /** `buildContentStructure(areas, subcategories, videos, tags)`, with the
      clock reading `now` for `lastUpdated`. */
  function BuildContentStructure(
    areas: seq<Area>, subs: seq<Subcategory>, videos: seq<Video>, tags: seq<Tag>, now: string
  ): (r: Result<ContentStructure, StructureError>)
    ensures r == Failure(TagWithoutName) <==> !AllNamed(tags)
    ensures r == Failure(SubcategoryWithoutTitle) <==>
              AllNamed(tags) && exists i :: 0 <= i < |areas| && !Orderable(Matched(subs, areas[i]))
    ensures r.Success? ==>
              && |r.value.areas| == |areas|
              && (forall i :: 0 <= i < |areas| ==> r.value.areas[i] == StructureArea(areas[i], subs, videos))
              && r.value.videos == videos
              && r.value.tags == tags
              && r.value.tagGlossary == BuildGlossary(tags)
              && r.value.lastUpdated == now
  {
    if !AllNamed(tags) then Failure(TagWithoutName)
    else if exists i :: 0 <= i < |areas| && !Orderable(Matched(subs, areas[i])) then Failure(SubcategoryWithoutTitle)
    else
      var structured := seq(|areas|, i requires 0 <= i < |areas| => StructureArea(areas[i], subs, videos));
      Success(ContentStructure(structured, videos, tags, BuildGlossary(tags), now))
  }

  /** A subcategory whose `areaId` names no area is attached under no area. */
  lemma OrphanIsDropped(
    areas: seq<Area>, subs: seq<Subcategory>, videos: seq<Video>, tags: seq<Tag>, now: string, j: nat)
    requires j < |subs|
    requires forall i :: 0 <= i < |areas| ==> subs[j].areaId != Some(areas[i].id)
    requires BuildContentStructure(areas, subs, videos, tags, now).Success?
    ensures forall a, s :: a in BuildContentStructure(areas, subs, videos, tags, now).value.areas && s in a.subcategories
              ==> s.id != subs[j].id || s.areaId != subs[j].areaId
  {
    var r := BuildContentStructure(areas, subs, videos, tags, now).value;
    forall a, s | a in r.areas && s in a.subcategories
      ensures s.id != subs[j].id || s.areaId != subs[j].areaId
    {
      var i :| 0 <= i < |r.areas| && r.areas[i] == a;
      assert a == StructureArea(areas[i], subs, videos);
      assert s.areaId == Some(areas[i].id);
    }
  }

  /** Every attached subcategory holds exactly the videos filed under it,
      newest first, and every attached video names that subcategory. */
  lemma TreeVideosAreMembers(
    areas: seq<Area>, subs: seq<Subcategory>, videos: seq<Video>, tags: seq<Tag>, now: string)
    requires BuildContentStructure(areas, subs, videos, tags, now).Success?
    ensures forall a, s :: a in BuildContentStructure(areas, subs, videos, tags, now).value.areas && s in a.subcategories ==>
              && SortedBy(s.videos, ByDateDesc)
              && multiset(s.videos) == multiset(Members(videos, s.id))
              && (forall v :: v in s.videos ==> v in videos && s.id in v.categories)
  {
    var r := BuildContentStructure(areas, subs, videos, tags, now).value;
    forall a, s | a in r.areas && s in a.subcategories
      ensures && SortedBy(s.videos, ByDateDesc)
              && multiset(s.videos) == multiset(Members(videos, s.id))
              && (forall v :: v in s.videos ==> v in videos && s.id in v.categories)
    {
      var i :| 0 <= i < |r.areas| && r.areas[i] == a;
      var j :| 0 <= j < |subs| && subs[j].areaId == Some(areas[i].id) && s == WithVideos(subs[j], videos);
    }
  }

  /** The catalog example: area A1 "Shelter" with subcategory S1 holding video V1. */
  lemma ShelterExample()
    ensures
      var a1 := Area("A1", Some("Shelter"), DefaultAreaIcon, None, None, None, []);
      var s1 := Subcategory("S1", Some("Methods"), None, None, None, None, None, Some("A1"), "shelter-0", [], []);
      var v1 := Video("V1", Some("Gabion Wall"), None, None, ["S1"], [], 0, 0, None, None, "",
                      DefaultLicence, "", DefaultVideoIcon, DefaultVideoColor, 0, 20240101);
      var r := BuildContentStructure([a1], [s1], [v1], [], "now");
      r.Success? && r.value.areas[0].subcategories[0].videos[0].id == "V1"
  {
    var a1 := Area("A1", Some("Shelter"), DefaultAreaIcon, None, None, None, []);
    var s1 := Subcategory("S1", Some("Methods"), None, None, None, None, None, Some("A1"), "shelter-0", [], []);
    var v1 := Video("V1", Some("Gabion Wall"), None, None, ["S1"], [], 0, 0, None, None, "",
                    DefaultLicence, "", DefaultVideoIcon, DefaultVideoColor, 0, 20240101);
    assert Members([v1], "S1") == [v1];
    assert Matched([s1], a1) == [s1];
    var a := StructureArea(a1, [s1], [v1]);
    assert |a.subcategories| == 1;
    assert a.subcategories[0] == WithVideos(s1, [v1]);
    assert |WithVideos(s1, [v1]).videos| == 1;
    assert v1 in WithVideos(s1, [v1]).videos;
  }
}

=== FILE: entities.dfy ===
/** The catalog's records as the frontend holds them, the raw Parse objects they
    are read from, and the record-shaping step of `fetchAreas`,
    `fetchSubcategories`, `fetchVideos` and `fetchTags`. A Parse field that may be
    missing is an `Option`; dates are integer timestamps. */
module Entities {
  import opened Wrappers
  import opened Strings

  const DefaultAreaIcon := "fas fa-folder"
  const DefaultLicence := "Standard YouTube License"
  const DefaultVideoIcon := "fas fa-video"
  const DefaultVideoColor := "#6c757d"
  const DefaultTagColor := "#8b5cf6"

  datatype Video = Video(
    id: string,
    title: Option<string>,
    youtubeId: Option<string>,
    description: Option<string>,
    categories: seq<string>,     // ids of the subcategories the video belongs to
    tags: seq<string>,           // tag names, compared case-sensitively
    rating: int,
    views: int,
    duration: Option<string>,
    creator: Option<string>,
    authors: string,
    licence: string,
    localVideoFilename: string,
    iconTagFa: string,
    colorTag: string,
    flatIndex: nat,              // position in the fetched list
    date: int)

  datatype Subcategory = Subcategory(
    id: string,
    title: Option<string>,
    description: Option<string>,
    materials: Option<seq<string>>,
    processSteps: Option<seq<string>>,
    context: Option<string>,
    subtitle: Option<string>,
    areaId: Option<string>,
    uniqueId: string,
    tags: seq<string>,
    videos: seq<Video>)

  datatype Area = Area(
    id: string,
    area: Option<string>,
    icon: string,
    featherIcon: Option<string>,
    svgString: Option<string>,
    description: Option<string>,
    subcategories: seq<Subcategory>)

  datatype Tag = Tag(id: string, name: Option<string>, definition: Option<string>, color: string)

  /** Parse objects as the queries return them. */
  datatype RawArea = RawArea(
    id: string, area: Option<string>, icon: Option<string>, featherIcon: Option<string>,
    svgString: Option<string>, description: Option<string>)

  /** The `area` pointer of a subcategory, fetched through `include('area')`. */
  datatype AreaPointer = AreaPointer(id: string, area: Option<string>)

  datatype RawSubcategory = RawSubcategory(
    id: string, title: Option<string>, description: Option<string>,
    materials: Option<seq<string>>, processSteps: Option<seq<string>>,
    context: Option<string>, subtitle: Option<string>, area: Option<AreaPointer>,
    uniqueId: Option<string>, tags: Option<seq<string>>)

  datatype RawVideo = RawVideo(
    id: string, createdAt: int, title: Option<string>, youtubeId: Option<string>,
    description: Option<string>, categories: Option<seq<string>>, tags: Option<seq<string>>,
    rating: Option<int>, views: Option<int>, duration: Option<string>, creator: Option<string>,
    authors: Option<string>, licence: Option<string>, localVideoFilename: Option<string>,
    iconTagFa: Option<string>, colorTag: Option<string>, date: Option<int>)

  datatype RawTag = RawTag(id: string, name: Option<string>, definition: Option<string>, color: Option<string>)

  /** The record `fetchAreas` builds: an empty or missing icon falls back to the
      folder glyph, and the area starts without subcategories. */
  function NormalizeArea(raw: RawArea): (a: Area)
    ensures a.id == raw.id && a.area == raw.area && a.description == raw.description
    ensures a.featherIcon == raw.featherIcon && a.svgString == raw.svgString
    ensures a.icon != ""
    ensures Truthy(raw.icon) ==> a.icon == raw.icon.value
    ensures !Truthy(raw.icon) ==> a.icon == DefaultAreaIcon
    ensures a.subcategories == []
  {
    Area(raw.id, raw.area, OrDefault(raw.icon, DefaultAreaIcon), raw.featherIcon,
         raw.svgString, raw.description, [])
  }

  /** The fallback natural key of a subcategory: the slug of its area's name
      (the text `undefined` when the pointer or the name is missing), a dash
      and the object id. */
  function FallbackUniqueId(area: Option<AreaPointer>, id: string): string {
    var prefix := if area.Some? && area.value.area.Some? then Slug(Lower(area.value.area.value)) else "undefined";
    prefix + "-" + id
  }

  /** The record `fetchSubcategories` builds. */
  function NormalizeSubcategory(raw: RawSubcategory): (s: Subcategory)
    ensures s.id == raw.id && s.title == raw.title && s.description == raw.description
    ensures s.materials == raw.materials && s.processSteps == raw.processSteps
    ensures s.context == raw.context && s.subtitle == raw.subtitle
    ensures s.areaId == (if raw.area.Some? then Some(raw.area.value.id) else None)
    ensures Truthy(raw.uniqueId) ==> s.uniqueId == raw.uniqueId.value
    ensures !Truthy(raw.uniqueId) ==> s.uniqueId == FallbackUniqueId(raw.area, raw.id)
    ensures s.uniqueId != ""
    ensures s.tags == raw.tags.GetOr([])
    ensures s.videos == []
  {
    Subcategory(
      raw.id, raw.title, raw.description, raw.materials, raw.processSteps, raw.context,
      raw.subtitle, if raw.area.Some? then Some(raw.area.value.id) else None,
      if Truthy(raw.uniqueId) then raw.uniqueId.value else FallbackUniqueId(raw.area, raw.id),
      raw.tags.GetOr([]), [])
  }

  /** The fallback key never contains whitespace coming from the area name. */
  lemma FallbackUniqueIdShape(p: AreaPointer, id: string)
    requires p.area.Some?
    ensures FallbackUniqueId(Some(p), id) == Slug(Lower(p.area.value)) + "-" + id
    ensures !HasSpace(Slug(Lower(p.area.value)))
  {
  }

  /** The record `fetchVideos` builds for the video at position `index`. */
  function NormalizeVideo(raw: RawVideo, index: nat): (v: Video)
    ensures v.id == raw.id && v.title == raw.title && v.youtubeId == raw.youtubeId
    ensures v.description == raw.description && v.duration == raw.duration && v.creator == raw.creator
    ensures v.categories == raw.categories.GetOr([]) && v.tags == raw.tags.GetOr([])
    ensures v.rating == raw.rating.GetOr(0) && v.views == raw.views.GetOr(0)
    ensures v.authors == OrDefault(raw.authors, "")
    ensures Truthy(raw.licence) ==> v.licence == raw.licence.value
    ensures !Truthy(raw.licence) ==> v.licence == DefaultLicence
    ensures v.localVideoFilename == OrDefault(raw.localVideoFilename, "")
    ensures v.iconTagFa != "" && v.colorTag != "" && v.licence != ""
    ensures Truthy(raw.iconTagFa) ==> v.iconTagFa == raw.iconTagFa.value
    ensures !Truthy(raw.iconTagFa) ==> v.iconTagFa == DefaultVideoIcon
    ensures Truthy(raw.colorTag) ==> v.colorTag == raw.colorTag.value
    ensures !Truthy(raw.colorTag) ==> v.colorTag == DefaultVideoColor
    ensures v.flatIndex == index
    ensures v.date == (if raw.date.Some? then raw.date.value else raw.createdAt)
  {
    Video(
      raw.id, raw.title, raw.youtubeId, raw.description,
      raw.categories.GetOr([]), raw.tags.GetOr([]), raw.rating.GetOr(0), raw.views.GetOr(0),
      raw.duration, raw.creator, OrDefault(raw.authors, ""),
      OrDefault(raw.licence, DefaultLicence), OrDefault(raw.localVideoFilename, ""),
      OrDefault(raw.iconTagFa, DefaultVideoIcon), OrDefault(raw.colorTag, DefaultVideoColor),
      index, raw.date.GetOr(raw.createdAt))
  }

  /** `results.map((obj, index) => ...)` in `fetchVideos`. */
  function NormalizeVideos(raws: seq<RawVideo>): (vs: seq<Video>)
    ensures |vs| == |raws|
    ensures forall i :: 0 <= i < |raws| ==> vs[i] == NormalizeVideo(raws[i], i)
  {
    seq(|raws|, i requires 0 <= i < |raws| => NormalizeVideo(raws[i], i))
  }

  /** The record `fetchTags` builds. */
  function NormalizeTag(raw: RawTag): (t: Tag)
    ensures t.id == raw.id && t.name == raw.name && t.definition == raw.definition
    ensures t.color != ""
    ensures Truthy(raw.color) ==> t.color == raw.color.value
    ensures !Truthy(raw.color) ==> t.color == DefaultTagColor
  {
    Tag(raw.id, raw.name, raw.definition, OrDefault(raw.color, DefaultTagColor))
  }

  /** Writing a normalized record back as a Parse object. */
  function AreaToRaw(a: Area): RawArea {
    RawArea(a.id, a.area, Some(a.icon), a.featherIcon, a.svgString, a.description)
  }

  /** A subcategory without an `areaId` is written back without an area pointer. */
  function SubcategoryToRaw(s: Subcategory): RawSubcategory {
    var area := if s.areaId.Some? then Some(AreaPointer(s.areaId.value, None)) else None;
    RawSubcategory(s.id, s.title, s.description, s.materials, s.processSteps, s.context,
                   s.subtitle, area, Some(s.uniqueId), Some(s.tags))
  }

  function VideoToRaw(v: Video): RawVideo {
    RawVideo(v.id, v.date, v.title, v.youtubeId, v.description, Some(v.categories), Some(v.tags),
             Some(v.rating), Some(v.views), v.duration, v.creator, Some(v.authors), Some(v.licence),
             Some(v.localVideoFilename), Some(v.iconTagFa), Some(v.colorTag), Some(v.date))
  }

  function TagToRaw(t: Tag): RawTag {
    RawTag(t.id, t.name, t.definition, Some(t.color))
  }

  /** Defaults are final: shaping a record that was already shaped (and stored
      back) gives the same record, so no default is ever applied twice. */
  lemma NormalizeIsIdempotent(ra: RawArea, rs: RawSubcategory, rv: RawVideo, i: nat, rt: RawTag)
    ensures NormalizeArea(AreaToRaw(NormalizeArea(ra))) == NormalizeArea(ra)
    ensures NormalizeSubcategory(SubcategoryToRaw(NormalizeSubcategory(rs))) == NormalizeSubcategory(rs)
    ensures NormalizeVideo(VideoToRaw(NormalizeVideo(rv, i)), i) == NormalizeVideo(rv, i)
    ensures NormalizeTag(TagToRaw(NormalizeTag(rt))) == NormalizeTag(rt)
  {
  }
}

=== FILE: notifications.dfy ===
/** `NotificationManager`: a newest-first list of notifications capped at
    `maxNotifications`. The id and the timestamp, which the source draws from
    the clock and `Math.random`, are parameters. */
module Notifications {
  import opened Wrappers
  import opened Seqs

  const MaxNotifications: nat := 50

  datatype Notification = Notification(
    id: int, kind: string, title: string, message: string, timestamp: int, read: bool)

  /** The list after `add`, and the notification it returns. */
  datatype Added = Added(list: seq<Notification>, notification: Notification)

  /** `add(type, title, message)`: puts an unread notification in front and
      keeps only the newest 50. */
  function Add(list: seq<Notification>, id: int, kind: string, title: string, message: string, now: int): (r: Added)
    ensures r.notification == Notification(id, kind, title, message, now, false)
    ensures |r.list| == if |list| + 1 > MaxNotifications then MaxNotifications else |list| + 1
    ensures r.list[0] == r.notification
    ensures r.list[1..] == list[..|r.list| - 1]
  {
    var n := Notification(id, kind, title, message, now, false);
    var grown := [n] + list;
    var kept := if |grown| > MaxNotifications then grown[..MaxNotifications] else grown;
    assert kept[1..] == list[..|kept| - 1];
    Added(kept, n)
  }

  /** Nothing ahead of position `i` has id `id`. */
  predicate FirstWithId(list: seq<Notification>, id: int, i: int)
    requires 0 <= i <= |list|
  {
    forall j :: 0 <= j < i ==> list[j].id != id
  }

  /** `markAsRead(id)`: `find` marks the first notification with that id. */
  function MarkAsRead(list: seq<Notification>, id: int): (r: seq<Notification>)
    ensures |r| == |list|
    ensures forall i :: 0 <= i < |list| && !(list[i].id == id && FirstWithId(list, id, i)) ==> r[i] == list[i]
    ensures forall i :: 0 <= i < |list| && list[i].id == id && FirstWithId(list, id, i) ==> r[i] == list[i].(read := true)
  {
    if |list| == 0 then []
    else if list[0].id == id then [list[0].(read := true)] + list[1..]
    else
      var rest := MarkAsRead(list[1..], id);
      assert forall i :: 1 <= i < |list| ==> (FirstWithId(list, id, i) <==> FirstWithId(list[1..], id, i - 1));
      [list[0]] + rest
  }

  predicate IsUnread(n: Notification) {
    !n.read
  }

  /** `getUnread()`. */
  function GetUnread(list: seq<Notification>): (r: seq<Notification>)
    ensures IsSubsequence(r, list)
    ensures forall i :: 0 <= i < |r| ==> !r[i].read
    ensures forall i :: 0 <= i < |list| && !list[i].read ==> list[i] in r
    ensures |r| == CountIf(list, IsUnread)
  {
    FilterIsSubsequence(list, IsUnread);
    FilterLength(list, IsUnread);
    Filter(list, IsUnread)
  }

  /** The notification `markAsRead(id)` finds, if any. */
  function Target(list: seq<Notification>, id: int): (r: Option<Notification>) {
    if |list| == 0 then None else if list[0].id == id then Some(list[0]) else Target(list[1..], id)
  }

  /** Marking as read removes exactly one unread notification when the one it
      finds was unread, and none otherwise. */
  lemma {:induction false} MarkAsReadUnreadCount(list: seq<Notification>, id: int)
    ensures |GetUnread(MarkAsRead(list, id))|
         == |GetUnread(list)| - (if Target(list, id).Some? && !Target(list, id).value.read then 1 else 0)
  {
    FilterLength(MarkAsRead(list, id), IsUnread);
    FilterLength(list, IsUnread);
    UnreadCountAfterMark(list, id);
  }

  lemma {:induction false} UnreadCountAfterMark(list: seq<Notification>, id: int)
    ensures CountIf(MarkAsRead(list, id), IsUnread)
         == CountIf(list, IsUnread) - (if Target(list, id).Some? && !Target(list, id).value.read then 1 else 0)
  {
    if |list| > 0 {
      var r := MarkAsRead(list, id);
      if list[0].id == id {
        assert r[1..] == list[1..];
      } else {
        UnreadCountAfterMark(list[1..], id);
        assert r[1..] == MarkAsRead(list[1..], id);
      }
    }
  }

  /** A new notification is the first unread one, and the list never holds
      more than 50 once it holds at most 50. */
  lemma AddedIsFirstUnread(list: seq<Notification>, id: int, kind: string, title: string, message: string, now: int)
    requires |list| <= MaxNotifications
    ensures var r := Add(list, id, kind, title, message, now);
      && |r.list| <= MaxNotifications
      && |GetUnread(r.list)| > 0
      && GetUnread(r.list)[0] == r.notification
  {
    var r := Add(list, id, kind, title, message, now);
    assert r.list == [r.list[0]] + r.list[1..];
  }
}

=== FILE: seqs.dfy ===
/** Order-preserving operations on sequences: the model's `Array.prototype.filter`
    and `map`, and the subsequence relation that describes their results. */
module Seqs {

  /** `a` can be obtained from `b` by deleting elements. */
  predicate IsSubsequence<T(==)>(a: seq<T>, b: seq<T>)
    decreases |b|
  {
    |a| == 0 || (|b| > 0 && ((a[0] == b[0] && IsSubsequence(a[1..], b[1..])) || IsSubsequence(a, b[1..])))
  }

  /** Deleting from a sequence twice is deleting from it once. */
  lemma {:induction false} SubsequenceTransitive<T>(a: seq<T>, b: seq<T>, c: seq<T>)
    requires IsSubsequence(a, b) && IsSubsequence(b, c)
    ensures IsSubsequence(a, c)
    decreases |c|
  {
    if |a| == 0 {
    } else if b[0] == c[0] && IsSubsequence(b[1..], c[1..]) {
      if a[0] == b[0] && IsSubsequence(a[1..], b[1..]) {
        SubsequenceTransitive(a[1..], b[1..], c[1..]);
      } else {
        SubsequenceTransitive(a, b[1..], c[1..]);
      }
    } else {
      SubsequenceTransitive(a, b, c[1..]);
    }
  }

  /** `s.filter(p)`. */
  function Filter<T>(s: seq<T>, p: T -> bool): (r: seq<T>)
    ensures |r| <= |s|
    ensures forall i :: 0 <= i < |r| ==> r[i] in s && p(r[i])
    ensures forall i :: 0 <= i < |s| && p(s[i]) ==> s[i] in r
  {
    if |s| == 0 then []
    else if p(s[0]) then [s[0]] + Filter(s[1..], p)
    else Filter(s[1..], p)
  }

  /** A filter keeps the order of what it keeps and keeps every element it accepts. */
  lemma {:induction false} FilterIsSubsequence<T>(s: seq<T>, p: T -> bool)
    ensures IsSubsequence(Filter(s, p), s)
    ensures (forall i :: 0 <= i < |s| ==> p(s[i])) ==> Filter(s, p) == s
  {
    if |s| > 0 {
      FilterIsSubsequence(s[1..], p);
      if p(s[0]) {
        assert ([s[0]] + Filter(s[1..], p))[1..] == Filter(s[1..], p);
      }
    }
  }

  /** Filters that agree on the elements of `s` select the same subsequence. */
  lemma {:induction false} FilterExtensional<T>(s: seq<T>, p: T -> bool, q: T -> bool)
    requires forall i :: 0 <= i < |s| ==> p(s[i]) == q(s[i])
    ensures Filter(s, p) == Filter(s, q)
  {
    if |s| > 0 {
      FilterExtensional(s[1..], p, q);
    }
  }

  /** Filtering by `p` and then by `q` is filtering by their conjunction. */
  lemma {:induction false} FilterFilter<T>(s: seq<T>, p: T -> bool, q: T -> bool, pq: T -> bool)
    requires forall x :: pq(x) == (p(x) && q(x))
    ensures Filter(Filter(s, p), q) == Filter(s, pq)
  {
    if |s| > 0 {
      FilterFilter(s[1..], p, q, pq);
    }
  }

  /** Number of elements of `s` satisfying `p`. */
  function CountIf<T>(s: seq<T>, p: T -> bool): (n: nat)
    ensures n <= |s|
  {
    if |s| == 0 then 0 else (if p(s[0]) then 1 else 0) + CountIf(s[1..], p)
  }

  lemma {:induction false} FilterLength<T>(s: seq<T>, p: T -> bool)
    ensures |Filter(s, p)| == CountIf(s, p)
  {
    if |s| > 0 {
      FilterLength(s[1..], p);
    }
  }

  lemma {:induction false} CountIfAppend<T>(s: seq<T>, t: seq<T>, p: T -> bool)
    ensures CountIf(s + t, p) == CountIf(s, p) + CountIf(t, p)
  {
    if |s| > 0 {
      assert (s + t)[1..] == s[1..] + t;
      CountIfAppend(s[1..], t, p);
    } else {
      assert s + t == t;
    }
  }

  /** An element found at two positions occurs at least twice. */
  lemma OccursTwice<T>(s: seq<T>, i: int, j: int)
    requires 0 <= i < j < |s| && s[i] == s[j]
    ensures multiset(s)[s[i]] >= 2
  {
    assert s == s[..j] + [s[j]] + s[j + 1..];
    assert s[i] in s[..j];
  }

  /** `s.map(f)`. */
  function Map<T, U>(s: seq<T>, f: T -> U): (r: seq<U>)
    ensures |r| == |s|
    ensures forall i :: 0 <= i < |s| ==> r[i] == f(s[i])
  {
    seq(|s|, i requires 0 <= i < |s| => f(s[i]))
  }
}

=== FILE: sorting.dfy ===
/** The stable comparison sort behind `Array.prototype.sort(compare)`. A
    comparator `compare` is represented by `le(a, b) == (compare(a, b) <= 0)`;
    the source's comparators (by title, by date, by view count) are total
    preorders. */
module Sorting {

  ghost predicate TotalPreorder<T(!new)>(le: (T, T) -> bool) {
    && (forall x, y :: le(x, y) || le(y, x))
    && (forall x, y, z :: le(x, y) && le(y, z) ==> le(x, z))
  }

  predicate SortedBy<T>(s: seq<T>, le: (T, T) -> bool) {
    forall i, j :: 0 <= i < j < |s| ==> le(s[i], s[j])
  }

  /** `a` and `b` compare equal. */
  predicate Equivalent<T>(le: (T, T) -> bool, a: T, b: T) {
    le(a, b) && le(b, a)
  }

  /** Places `x` in front of the first element it does not follow, so `x`
      stays ahead of every element equivalent to it. */
  function Insert<T(!new)>(x: T, s: seq<T>, le: (T, T) -> bool): (r: seq<T>)
    requires TotalPreorder(le)
    requires SortedBy(s, le)
    ensures SortedBy(r, le)
    ensures multiset(r) == multiset(s) + multiset{x}
  {
    if |s| == 0 then [x]
    else if le(x, s[0]) then [x] + s
    else
      var t := Insert(x, s[1..], le);
      assert forall i :: 0 <= i < |t| ==> le(s[0], t[i]) by {
        forall i | 0 <= i < |t|
          ensures le(s[0], t[i])
        {
          assert t[i] in multiset(t);
          if t[i] != x {
            assert t[i] in multiset(s[1..]);
            var k :| 0 <= k < |s[1..]| && s[1..][k] == t[i];
            assert s[k + 1] == t[i];
          }
        }
      }
      assert s == [s[0]] + s[1..];
      [s[0]] + t
  }

  /** Insertion sort: a sorted permutation of `s`. */
  function InsertionSort<T(!new)>(s: seq<T>, le: (T, T) -> bool): (r: seq<T>)
    requires TotalPreorder(le)
    ensures SortedBy(r, le)
    ensures multiset(r) == multiset(s)
    ensures |r| == |s|
  {
    if |s| == 0 then []
    else
      assert s == [s[0]] + s[1..];
      Insert(s[0], InsertionSort(s[1..], le), le)
  }

  /** The elements of `s` equivalent to `k`, in their order in `s`. */
  function EquivalentTo<T>(s: seq<T>, le: (T, T) -> bool, k: T): seq<T> {
    if |s| == 0 then []
    else (if Equivalent(le, s[0], k) then [s[0]] else []) + EquivalentTo(s[1..], le, k)
  }

  lemma Transitive<T(!new)>(le: (T, T) -> bool, a: T, b: T, c: T)
    requires TotalPreorder(le)
    ensures le(a, b) && le(b, c) ==> le(a, c)
  {
  }

  /** Inserting `x` puts it ahead of the elements equivalent to it and keeps
      their order. */
  lemma {:induction false} InsertKeepsEquivalentOrder<T(!new)>(x: T, s: seq<T>, le: (T, T) -> bool, k: T)
    requires TotalPreorder(le)
    requires SortedBy(s, le)
    ensures EquivalentTo(Insert(x, s, le), le, k)
         == (if Equivalent(le, x, k) then [x] else []) + EquivalentTo(s, le, k)
    decreases |s|
  {
    if |s| == 0 {
      EquivalentToCons(x, [], le, k);
    } else if le(x, s[0]) {
      EquivalentToCons(x, s, le, k);
    } else {
      var t := Insert(x, s[1..], le);
      assert Insert(x, s, le) == [s[0]] + t;
      EquivalentToCons(s[0], t, le, k);
      assert s == [s[0]] + s[1..];
      EquivalentToCons(s[0], s[1..], le, k);
      InsertKeepsEquivalentOrder(x, s[1..], le, k);
      Transitive(le, x, k, s[0]);
    }
  }

  lemma EquivalentToCons<T>(a: T, t: seq<T>, le: (T, T) -> bool, k: T)
    ensures EquivalentTo([a] + t, le, k) == (if Equivalent(le, a, k) then [a] else []) + EquivalentTo(t, le, k)
  {
    assert ([a] + t)[1..] == t;
  }

  /** Stability: elements that compare equal keep their relative order. */
  lemma {:induction false} InsertionSortIsStable<T(!new)>(s: seq<T>, le: (T, T) -> bool, k: T)
    requires TotalPreorder(le)
    ensures EquivalentTo(InsertionSort(s, le), le, k) == EquivalentTo(s, le, k)
  {
    if |s| > 0 {
      InsertionSortIsStable(s[1..], le, k);
      InsertKeepsEquivalentOrder(s[0], InsertionSort(s[1..], le), le, k);
    }
  }

  /** A sequence that is already sorted is left as it is. */
  lemma {:induction false} InsertionSortOfSorted<T(!new)>(s: seq<T>, le: (T, T) -> bool)
    requires TotalPreorder(le)
    requires SortedBy(s, le)
    ensures InsertionSort(s, le) == s
  {
    if |s| > 0 {
      InsertionSortOfSorted(s[1..], le);
      assert InsertionSort(s[1..], le) == s[1..];
      if |s| > 1 {
        assert le(s[0], s[1]);
      }
      assert s == [s[0]] + s[1..];
    }
  }
}

=== FILE: strings.dfy ===
/** String operations the JavaScript source takes from the language runtime:
    `toLowerCase`, the `\s` character class, `includes` on strings,
    `localeCompare`, truthiness of a string and number-to-string conversion. */
module Strings {
  import opened Wrappers

  /** `toLowerCase` restricted to ASCII letters. */
  function LowerChar(c: char): char {
    if 'A' <= c <= 'Z' then (c as int + 32) as char else c
  }

  predicate IsUpper(c: char) {
    'A' <= c <= 'Z'
  }

  function Lower(s: string): (r: string)
    ensures |r| == |s|
    ensures forall i :: 0 <= i < |s| ==> r[i] == LowerChar(s[i])
  {
    if |s| == 0 then [] else [LowerChar(s[0])] + Lower(s[1..])
  }

  /** Lower-casing leaves no upper-case letter behind and changes nothing else. */
  lemma LowerIsLowerCase(s: string)
    ensures forall i :: 0 <= i < |s| ==> !IsUpper(Lower(s)[i])
    ensures forall i :: 0 <= i < |s| && !IsUpper(s[i]) ==> Lower(s)[i] == s[i]
  {
  }

  lemma LowerIdempotent(s: string)
    ensures Lower(Lower(s)) == Lower(s)
  {
  }

  /** ECMAScript's `\s`: the WhiteSpace and LineTerminator code points. */
  predicate IsSpace(c: char) {
    var n := c as int;
    n == 0x20 || 9 <= n <= 13 || n == 0xA0 || n == 0x1680 || 0x2000 <= n <= 0x200A
    || n == 0x2028 || n == 0x2029 || n == 0x202F || n == 0x205F || n == 0x3000 || n == 0xFEFF
  }

  predicate HasSpace(s: string) {
    exists i :: 0 <= i < |s| && IsSpace(s[i])
  }

  /** `s` without its leading run of whitespace. */
  function DropSpaces(s: string): (r: string)
    ensures |r| <= |s|
    ensures |s| > 0 && IsSpace(s[0]) ==> |r| < |s|
    ensures |r| > 0 ==> !IsSpace(r[0])
    ensures r == s[|s| - |r|..]
  {
    if |s| > 0 && IsSpace(s[0]) then
      var r := DropSpaces(s[1..]);
      assert s[1..][|s| - 1 - |r|..] == s[|s| - |r|..];
      r
    else s
  }

  /** `s.replace(/\s+/g, '-')`: every maximal run of whitespace becomes one `-`. */
  function Slug(s: string): (r: string)
    ensures |r| <= |s|
    ensures !HasSpace(r)
    ensures !HasSpace(s) ==> r == s
    decreases |s|
  {
    if |s| == 0 then []
    else if IsSpace(s[0]) then "-" + Slug(DropSpaces(s))
    else
      assert !HasSpace(s) ==> !HasSpace(s[1..]) by {
        if HasSpace(s[1..]) {
          var i :| 0 <= i < |s[1..]| && IsSpace(s[1..][i]);
          assert IsSpace(s[i + 1]);
        }
      }
      [s[0]] + Slug(s[1..])
  }

  /** A string that ends in a non-space keeps that end when dropping its
      leading whitespace, so text appended after it is untouched. */
  lemma {:induction false} DropSpacesAppend(a: string, c: string)
    requires |a| > 0 && !IsSpace(a[|a| - 1])
    ensures DropSpaces(a + c) == DropSpaces(a) + c
    ensures |DropSpaces(a)| > 0
    decreases |a|
  {
    if IsSpace(a[0]) {
      assert (a + c)[1..] == a[1..] + c;
      DropSpacesAppend(a[1..], c);
    }
  }

  /** Dropping a run of whitespace in front of `b` leaves `b`. */
  lemma {:induction false} DropSpacesRun(w: string, b: string)
    requires forall i :: 0 <= i < |w| ==> IsSpace(w[i])
    requires |b| == 0 || !IsSpace(b[0])
    ensures DropSpaces(w + b) == b
    decreases |w|
  {
    if |w| > 0 {
      assert (w + b)[1..] == w[1..] + b;
      DropSpacesRun(w[1..], b);
    } else {
      assert w + b == b;
    }
  }

  /** One step of the replacement, at the front of a non-empty string. */
  lemma SlugStep(s: string)
    requires |s| > 0
    ensures IsSpace(s[0]) ==> Slug(s) == "-" + Slug(DropSpaces(s))
    ensures !IsSpace(s[0]) ==> Slug(s) == [s[0]] + Slug(s[1..])
  {
  }

  /** Every maximal run of whitespace becomes exactly one `-`, and the text
      around it is replaced independently. */
  lemma SlugReplacesRun(a: string, w: string, b: string)
    requires |a| == 0 || !IsSpace(a[|a| - 1])
    requires |w| > 0 && forall i :: 0 <= i < |w| ==> IsSpace(w[i])
    requires |b| == 0 || !IsSpace(b[0])
    ensures Slug(a + w + b) == Slug(a) + "-" + Slug(b)
  {
    var c := w + b;
    SlugRunFirst(w, b);
    SlugSplitBeforeSpace(a, c);
    ConcatAssoc(a, w, b);
    ConcatAssoc(Slug(a), "-", Slug(b));
  }

  /** Text ending in a non-space and text starting with a space are replaced
      independently of each other. */
  lemma {:induction false} SlugSplitBeforeSpace(a: string, c: string)
    requires |a| == 0 || !IsSpace(a[|a| - 1])
    requires |c| > 0 && IsSpace(c[0])
    ensures Slug(a + c) == Slug(a) + Slug(c)
    decreases |a|
  {
    if |a| == 0 {
      assert a + c == c;
    } else if IsSpace(a[0]) {
      var d := DropSpaces(a);
      DropSpacesAppend(a, c);
      assert d == a[|a| - |d|..];
      assert d[|d| - 1] == a[|a| - 1];
      SlugSplitBeforeSpace(d, c);
      SlugSpaceFront(a, c);
    } else {
      assert |a| > 1 ==> a[1..][|a[1..]| - 1] == a[|a| - 1];
      SlugSplitBeforeSpace(a[1..], c);
      SlugLetterFront(a, c);
    }
  }

  /** A leading whitespace run becomes one `-`. */
  lemma SlugRunFirst(w: string, b: string)
    requires |w| > 0 && forall i :: 0 <= i < |w| ==> IsSpace(w[i])
    requires |b| == 0 || !IsSpace(b[0])
    ensures Slug(w + b) == "-" + Slug(b)
  {
    SlugStep(w + b);
    DropSpacesRun(w, b);
  }

  /** The inductive step of `SlugSplitBeforeSpace` when `a` starts with whitespace. */
  lemma SlugSpaceFront(a: string, c: string)
    requires |a| > 0 && IsSpace(a[0])
    requires DropSpaces(a + c) == DropSpaces(a) + c
    requires Slug(DropSpaces(a) + c) == Slug(DropSpaces(a)) + Slug(c)
    ensures Slug(a + c) == Slug(a) + Slug(c)
  {
    var d := DropSpaces(a);
    SlugConcatStep(a, c);
    SlugStep(a);
    ConcatAssoc("-", Slug(d), Slug(c));
  }

  /** The inductive step of `SlugSplitBeforeSpace` when `a` starts with a non-space. */
  lemma SlugLetterFront(a: string, c: string)
    requires |a| > 0 && !IsSpace(a[0])
    requires Slug(a[1..] + c) == Slug(a[1..]) + Slug(c)
    ensures Slug(a + c) == Slug(a) + Slug(c)
  {
    SlugConcatStep(a, c);
    SlugStep(a);
    ConcatAssoc([a[0]], Slug(a[1..]), Slug(c));
  }

  /** One step of the replacement at the front of `a + c`, with `a` non-empty. */
  lemma SlugConcatStep(a: string, c: string)
    requires |a| > 0
    ensures IsSpace(a[0]) ==> Slug(a + c) == "-" + Slug(DropSpaces(a + c))
    ensures !IsSpace(a[0]) ==> Slug(a + c) == [a[0]] + Slug(a[1..] + c)
  {
    var s := a + c;
    assert s[0] == a[0];
    assert s[1..] == a[1..] + c;
    SlugStep(s);
  }

  lemma ConcatAssoc(x: string, y: string, z: string)
    ensures x + (y + z) == (x + y) + z
  {
  }

  /** Applying the replacement twice changes nothing more. */
  lemma SlugIdempotent(s: string)
    ensures Slug(Slug(s)) == Slug(s)
  {
  }

  /** JavaScript truthiness of a possibly absent string. */
  predicate Truthy(s: Option<string>) {
    s.Some? && |s.value| > 0
  }

  /** `s || d` for a possibly absent string `s`. */
  function OrDefault(s: Option<string>, d: string): (r: string)
    ensures Truthy(s) ==> r == s.value
    ensures !Truthy(s) ==> r == d
  {
    if Truthy(s) then s.value else d
  }

  /** The one key a plain JavaScript object will not store: assigning a string
      or a number to `obj["__proto__"]` goes to the prototype setter, which
      ignores anything that is not an object. */
  const ProtoKey := "__proto__"

  /** Code units a character takes in UTF-16: two for a character outside
      the Basic Multilingual Plane (a surrogate pair), one otherwise. */
  function Utf16Units(c: char): nat {
    if c as int >= 0x1_0000 then 2 else 1
  }

  /** JavaScript's `s.length`, which counts UTF-16 code units, not characters. */
  function Utf16Length(s: string): (r: nat)
    ensures |s| <= r <= 2 * |s|
    ensures (forall i :: 0 <= i < |s| ==> s[i] as int < 0x1_0000) ==> r == |s|
    ensures (forall i :: 0 <= i < |s| ==> s[i] as int >= 0x1_0000) ==> r == 2 * |s|
    decreases |s|
  {
    if |s| == 0 then 0 else Utf16Units(s[0]) + Utf16Length(s[1..])
  }

  /** The length of a concatenation is the sum of the lengths. */
  lemma {:induction false} Utf16LengthAppend(a: string, b: string)
    ensures Utf16Length(a + b) == Utf16Length(a) + Utf16Length(b)
    decreases |a|
  {
    if |a| > 0 {
      assert (a + b)[1..] == a[1..] + b;
      Utf16LengthAppend(a[1..], b);
    } else {
      assert a + b == b;
    }
  }

  predicate IsPrefix(p: string, s: string) {
    |p| <= |s| && s[..|p|] == p
  }

  /** `hay.includes(needle)`, searching from each start position in turn. */
  function Contains(hay: string, needle: string): bool
    decreases |hay|
  {
    IsPrefix(needle, hay) || (|hay| > 0 && Contains(hay[1..], needle))
  }

  /** `needle` occurs in `hay` starting at offset `i`. */
  predicate OccursAt(hay: string, needle: string, i: int) {
    0 <= i <= |hay| - |needle| && hay[i..i + |needle|] == needle
  }

  /** The search above finds exactly the occurrences at some offset. */
  lemma {:induction false} ContainsIsSubstring(hay: string, needle: string)
    ensures Contains(hay, needle) <==> exists i :: OccursAt(hay, needle, i)
    decreases |hay|
  {
    if IsPrefix(needle, hay) {
      assert OccursAt(hay, needle, 0);
    } else if |hay| == 0 {
    } else {
      ContainsIsSubstring(hay[1..], needle);
      if Contains(hay[1..], needle) {
        var i :| OccursAt(hay[1..], needle, i);
        assert hay[i + 1..i + 1 + |needle|] == hay[1..][i..i + |needle|];
        assert OccursAt(hay, needle, i + 1);
      }
      if exists i :: OccursAt(hay, needle, i) {
        var i :| OccursAt(hay, needle, i);
        assert i != 0;
        assert hay[1..][i - 1..i - 1 + |needle|] == hay[i..i + |needle|];
        assert OccursAt(hay[1..], needle, i - 1);
      }
    }
  }

  /** Every string includes the empty string. */
  lemma ContainsEmpty(hay: string)
    ensures Contains(hay, "")
  {
  }

  /** Code-point lexicographic order, standing in for `localeCompare(...) <= 0`. */
  predicate LexLe(a: string, b: string)
    decreases |a|
  {
    |a| == 0 || (|b| > 0 && (a[0] < b[0] || (a[0] == b[0] && LexLe(a[1..], b[1..]))))
  }

  lemma {:induction false} LexLeTotal(a: string, b: string)
    ensures LexLe(a, b) || LexLe(b, a)
    decreases |a|
  {
    if |a| > 0 && |b| > 0 && a[0] == b[0] {
      LexLeTotal(a[1..], b[1..]);
    }
  }

  lemma {:induction false} LexLeTransitive(a: string, b: string, c: string)
    requires LexLe(a, b) && LexLe(b, c)
    ensures LexLe(a, c)
    decreases |a|
  {
    if |a| > 0 && a[0] == b[0] && b[0] == c[0] {
      LexLeTransitive(a[1..], b[1..], c[1..]);
    }
  }

  lemma {:induction false} LexLeAntisymmetric(a: string, b: string)
    requires LexLe(a, b) && LexLe(b, a)
    ensures a == b
    decreases |a|
  {
    if |a| > 0 {
      LexLeAntisymmetric(a[1..], b[1..]);
    }
  }

  function DigitChar(d: nat): char
    requires d < 10
  {
    ['0', '1', '2', '3', '4', '5', '6', '7', '8', '9'][d]
  }

  predicate IsDigit(c: char) {
    '0' <= c <= '9'
  }

  /** Decimal rendering of a counter inside a template literal. */
  function NatToString(n: nat): (r: string)
    ensures |r| > 0
    ensures forall i :: 0 <= i < |r| ==> IsDigit(r[i])
    ensures |r| > 1 ==> r[0] != '0'
  {
    if n < 10 then [DigitChar(n)] else NatToString(n / 10) + [DigitChar(n % 10)]
  }

  function DigitValue(c: char): nat
    requires IsDigit(c)
  {
    c as int - '0' as int
  }

  /** Reads a decimal string back into a number. */
  function ParseNat(s: string): nat
    requires forall i :: 0 <= i < |s| ==> IsDigit(s[i])
  {
    if |s| == 0 then 0 else 10 * ParseNat(s[..|s| - 1]) + DigitValue(s[|s| - 1])
  }

  /** The rendering is faithful: reading it back gives the counter. */
  lemma {:induction false} NatToStringRoundTrip(n: nat)
    ensures ParseNat(NatToString(n)) == n
  {
    if n >= 10 {
      NatToStringRoundTrip(n / 10);
      var s := NatToString(n);
      assert s[..|s| - 1] == NatToString(n / 10);
    }
  }
}

=== FILE: wrappers.dfy ===
/** Wrappers used throughout the model: `Option` stands for a
    JavaScript value that may be `undefined`/`null`, `Arg` for one where the
    two differ, `Result` for a call that may throw. */
module Wrappers {

  datatype Option<+T> = None | Some(value: T) {

    /** The wrapped value, or `default` when absent. */
    function GetOr(default: T): T {
      match this
      case Some(v) => v
      case None => default
    }
  }

  /** A JavaScript argument or property: `undefined` takes a destructuring
      default, while `null` does not, so the two must be told apart. */
  datatype Arg<+T> = Undefined | Null | Given(value: T)

  datatype Result<+T, +E> = Success(value: T) | Failure(error: E)
}
